=== FILE: README.md ===
# OneLedger protocol transaction handlers, modelled in Dafny

This project models the transaction-processing core of the OneLedger
protocol node, with proofs about the model. These are the handlers a block
runs for each transaction type:

- `btcLockTx`: a user locks bitcoin into a tracker.
- `reportFinalityMintTx`: validators vote that an Ethereum lock or redeem
  is final. On finality the node mints or burns.
- `CancelProposalTx` and `WithdrawProposal`: the governance proposal
  life-cycle.

It also models the small value types these handlers use: addresses,
transaction types, amounts, fee rewards and the cached minimum fee. Last come
the two background jobs that broadcast a tracker's transaction to Bitcoin or
Ethereum, and the example serialisation adapter.

Each handler follows one pattern:

1. Decode a payload.
2. Check guards against keyed stores.
3. Update the stores in sequence.

The stores are classes with `map` fields. The tracker stores, the balance
ledger, the ACTIVE/FAILED proposal store and the proposal fund store all
take this form, and the handlers are methods that modify them. Some
operations belong to packages outside this model: JSON decoding, signature
and fee checks, Bitcoin wire decoding, Ethereum lock/redeem parsing, the
trackers' own vote bookkeeping, and the answer of every store write. These
become parameters, either values or functions. Each handler's contract
then holds whatever those parameters answer.

Go run-time panics are explicit outcomes:

- an index out of range;
- a nil dereference after an ignored lookup error;
- a typed nil passed to `SetData`.

Go's `int64` addition wraps around (`Action.AddInt64`). Big integers are
unbounded `int`.

Modules, one file each:

| module | file | models |
|---|---|---|
| `Wrappers` | `wrappers.dfy` | `Option`, `Result`, `Outcome` |
| `Keys` | `keys.dfy` | `data/keys/address.go` |
| `ActionType` | `action_init.dfy` | `action/init.go` |
| `Balance` | `balance.dfy` | currencies, coins and the balance ledger as the handlers use them |
| `Action` | `action.dfy` | `action/types.go`, handler errors, responses, `int64` arithmetic |
| `Fees` | `fees.dfy` | `data/fees/reward.go`, `data/fees/base.go` |
| `BtcLock` | `btc_lock.dfy` | `action/btc/ext_lock.go` |
| `EthFinality` | `eth_finality.dfy` | `action/eth/check_finalty.go` |
| `Governance` | `governance.dfy` | `action/governance/cancelProposal.go`, `withdrawProposal.go` |
| `Jobs` | `jobs.dfy` | job status values shared by the broadcast jobs |
| `BtcBroadcast` | `btc_broadcast.dfy` | `event/btc_broadcast.go` |
| `EthBroadcast` | `eth_broadcast.dfy` | `event/eth_broadcast.go` |
| `SerializeAdapter` | `serialize_adapter.dfy` | `node/serialize/example_adapter.go` |

Some behaviour of the source is modelled as written, even where it looks
unintended:

- **Second lock on a BTC tracker.** The BTC lock handler's state transition
  is commented out, so reserving a tracker leaves its state as it was.
  `BtcLock.ReservedStaysAvailableByState` shows that a tracker stays
  available whenever availability depends on the state alone.
- **Up to M+1 signatures.** The Bitcoin broadcast job stops pushing
  signatures after position M. That is at most M+1 signatures, not M
  (`BtcBroadcast.SigScript`).
- **ETH retries are lost.** The Ethereum broadcast job updates a copy of
  itself, so no retry count or status reaches the caller.
  `EthBroadcast.DoMyJob` returns that copy, and the caller's job is an
  immutable value.
- **ETH re-mint after a refused write.** `mintTokens` credits the locker
  before it saves the Released tracker and keeps the credit when that save
  fails, and the voted tracker is not saved on that path.
  `EthFinality.RemintAfterRefusedRelease` shows that the same report
  delivered again mints a second time. `EthFinality.DeliverTwice` proves
  exactly-once minting only when the first save goes through.
- **Vote counts run together.** The "not ready to mint" log appends the
  yes count and the no count with no separator, so the log does not
  determine the counts (`EthFinality.VoteCountLogAmbiguous`).
- **Withdraw status not saved.** `runWithdraw` changes the status and
  outcome of a local proposal copy that it never writes back.
  `Governance.RunWithdraw` exposes that copy as a ghost out-parameter.

## Model

| member | source | states |
|---|---|---|
| Keys.Hex | data/keys/address.go:14 | base16 of n bytes has 2n digits |
| Keys.HexInjective | data/keys/address.go:14 | distinct byte strings give distinct base16 renderings (induction over the bytes) |
| Keys.String | data/keys/address.go:13-15 | the address renders as "0x" followed by upper-case base16 of its bytes, 2+2n characters long |
| Keys.StringInjective | data/keys/address.go:13-15 | distinct addresses render as distinct strings |
| Keys.StringAlphabet | data/keys/address.go:13-15 | after the "0x" prefix the rendering uses only 0-9 and A-F |
| Keys.Bytes | data/keys/address.go:17-19 | `Bytes` returns the address's bytes unchanged |
| Keys.Equal | data/keys/address.go:21-23 | `Equal` holds iff the two byte sequences are equal |
| Keys.EqualReflexiveSymmetric | data/keys/address.go:21-23 | `Equal` is reflexive and symmetric |
| ActionType.TypeString | action/init.go:9-35 | SEND (0) renders as "SEND", APPLYVALIDATOR (1) as "APPLY_VALIDATOR", and every other value as "UNKNOWN" |
| Balance.NewCoinFromAmount | data/fees/base.go:29 | the coin carries exactly the given currency and amount |
| Balance.BalanceLedger.AddToAddress | action/governance/withdrawProposal.go:145 | a credit adds the coin to the owner's holding of that currency (an absent holding counts as 0) and changes no other holding; a refused credit changes nothing |
| Balance.Credit | action/eth/check_finalty.go:174 | the credited holding grows by the coin's amount, every other holding is kept, and exactly one key may be added |
| Action.AddInt64 | action/btc/ext_lock.go:111 | the int64 sum equals the mathematical sum when that fits, and otherwise differs from it by exactly 2^64 |
| Action.DecimalString | event/btc_broadcast.go:35 | the base-10 rendering is "-" and the digits of \|n\| for negative n, else the digits of n; it starts with '-' iff n is negative |
| Action.DigitsOfRoundTrip | event/btc_broadcast.go:35 | the digits of n, read back most significant first, give n (induction over n) |
| Action.DecimalRoundTrip | event/btc_broadcast.go:35 | reading back the rendering of n gives n |
| Action.DecimalStringInjective | event/btc_broadcast.go:35 | distinct numbers render as distinct strings, so distinct clock readings give distinct job ids |
| Action.NewAmount | action/types.go:31-33 | the amount holds the given currency name and value |
| Action.IsValid | action/types.go:37-45 | false for a currency name not in the list; otherwise the validity of the coin built from the value |
| Action.ToCoin | action/types.go:55-65 | the zero coin for an unknown currency; otherwise a coin of the registered currency holding the value |
| Action.ToCoinKeepsCurrencyName | action/types.go:55-65 | for a currency registered under its own name, the coin names that currency and keeps the value |
| Fees.Reward.NewReward | data/fees/reward.go:14-19 | a new reward has Total = amt and Matured = 0 |
| Fees.Reward.Add | data/fees/reward.go:21-24 | Total grows by amt, Matured is unchanged, and the receiver is returned |
| Fees.Reward.Minus | data/fees/reward.go:26-36 | amt above Matured returns the not-enough-matured error and changes nothing; otherwise both fields drop by amt, Total−Matured is kept and Matured stays ≥ 0 |
| Fees.Reward.Maturing | data/fees/reward.go:38-41 | Matured grows by amt, Total is unchanged, and there is never an error |
| Fees.ExpNoModulus | data/fees/base.go:28 | `Exp` with a nil modulus is 1 for an exponent ≤ 0 and positive for a positive base |
| Fees.ExpAdd | data/fees/base.go:28 | 10^(a+b) = 10^a · 10^b (induction over a) |
| Fees.MinFeeIsFractionOfUnit | data/fees/base.go:28 | scaled by 10^MinFeeDecimal, the minimum fee is exactly one whole coin, 10^Decimal base units |
| Fees.FeeOption.ComputedMinFee | data/fees/base.go:28-29 | the computed fee is a coin in FeeCurrency of 10^(Decimal−MinFeeDecimal), and 1 when that exponent is ≤ 0 |
| Fees.FeeOption.MinFee | data/fees/base.go:26-33 | the first call computes and caches the coin; later calls return the cached coin unchanged |
| Fees.MinFeeIsIdempotent | data/fees/base.go:26-33 | two consecutive calls return equal coins even when MinFeeDecimal changes in between |
| BtcLock.Signers | action/btc/ext_lock.go:34-36 | the locker is the only signer |
| BtcLock.Tags | action/btc/ext_lock.go:42-56 | two tags: the transaction type and the locker's address bytes |
| BtcLock.Threshold | action/btc/ext_lock.go:135 | (N·2)/3+1 is the least count strictly above two thirds of N |
| BtcLock.ThresholdOfFour | action/btc/ext_lock.go:180 | four validators need three signatures |
| BtcLock.Validate | action/btc/ext_lock.go:71-116 | each stage fails with its own error: wrong type, signature, fee, tracker not found, not available; a transaction without inputs, a non-first one on a tracker without a current tx, or a first one without outputs panics; a non-first tx not spending (CurrentTxId, 0) or a first tx whose output 0 is not LockAmount+CurrentBalance is a tracker mismatch; the lock passes iff it decodes, is signed, pays its fee, names an available tracker and extends the custody chain (a single-input tx pays LockAmount+CurrentBalance in output 0; any other spends output 0 of CurrentTxId) |
| BtcLock.UnrelatedSpendRejected | action/btc/ext_lock.go:103-110 | a non-first transaction that does not spend (CurrentTxId, 0) is rejected as not matching the tracker |
| BtcLock.ScriptAddresses | action/btc/ext_lock.go:136-146 | one entry per validator, in validator order |
| BtcLock.BuildParticipants | action/btc/ext_lock.go:136-146 | the append loop builds exactly the validators' script addresses, appending one even when its lookup errors |
| BtcLock.Reserve | action/btc/ext_lock.go:148-152 | only the process type, owner, multisig, process balance and unsigned tx change; state, balance and current tx are kept |
| BtcLock.ReservedStaysAvailableByState | action/btc/ext_lock.go:154-159 | with the transition commented out, a reservation keeps the state, so when `IsAvailable` reads only the state the reserved tracker is exactly as available as before |
| BtcLock.TrackerStore.SetTracker | action/btc/ext_lock.go:160-163 | a write stores the tracker under the name; a refused write changes nothing |
| BtcLock.ReserveForLock | action/btc/ext_lock.go:118-168 | succeeds iff the lock decodes, its tracker exists and is available, and the write goes through; then the tracker is stored reserved with threshold (N·2)/3+1 over the N script addresses; every failure writes nothing and has its own log |
| BtcLock.ProcessCheck | action/btc/ext_lock.go:118-168 | the reservation above, answered with the lock's tags; an undecoded payload, a missing tracker, an unavailable tracker and a refused write each answer with their own log ("wrong tx type", "tracker not found: <name>", the `%!(EXTRA string=<name>)` rendering, "failed to update tracker") and change nothing |
| BtcLock.ProcessDeliver | action/btc/ext_lock.go:170-220 | the same reservation, answered with the lock's tags and "tracker: <name>"; the same four failures answer with the same four logs and change nothing |
| BtcLock.ProcessFee | action/btc/ext_lock.go:222-225 | the shared fee handling with multiplier 1 |
| EthFinality.Signers | action/eth/check_finalty.go:27-31 | the validator address is the only signer |
| EthFinality.NameHex | action/eth/check_finalty.go:50 | the tracker name renders as "0x" followed by the lower-case base16 of its bytes |
| EthFinality.NameHexInjective | action/eth/check_finalty.go:48-51 | distinct tracker names get distinct tx.tracker_name tags |
| EthFinality.Tags | action/eth/check_finalty.go:37-59 | four tags: type, owner (the locker), tracker name in hex, validator |
| EthFinality.Validate | action/eth/check_finalty.go:74-92 | rejects an undecodable payload and bad signatures; a negative VoteIndex is missing data; otherwise passes |
| EthFinality.ProcessFee | action/eth/check_finalty.go:159-161 | succeeds and charges nothing |
| EthFinality.MintCoin | action/eth/check_finalty.go:164-173 | the mint coin exists iff ETH is registered and the lock parses; it is that amount in ETH; each failure has its own error |
| EthFinality.TrackerStore.Set | action/eth/check_finalty.go:148-152 | a write stores the tracker under its own name; a failed write changes nothing |
| EthFinality.MintTokens | action/eth/check_finalty.go:163-186 | a missing currency, a parse error or a refused credit change nothing; otherwise the locker is credited first, then the tracker is saved Released, and the credit stays if that save fails |
| EthFinality.BurnTokens | action/eth/check_finalty.go:188-204 | no balance changes; with ETH registered and the redeem parsed the tracker is saved Released |
| EthFinality.RunCheckFinality | action/eth/check_finalty.go:104-157 | undecodable: nothing happens; missing tracker: panic; already finalized: success with no vote, write or credit; failed vote: failure, nothing saved; not yet final: the voted tracker is saved and the yes/no counts reported; final Lock: mint then Released; final Redeem: Released with no balance change; in every case the ledger changes by at most one mint credit and only the reported tracker may change |
| EthFinality.DeliverTwice | action/eth/check_finalty.go:94-157 | when the first Released write goes through, a finalizing report delivered twice mints once: the first run reports "minting successful" and releases the tracker, the second finds it finalized and changes nothing |
| EthFinality.VoteCountLogAmbiguous | action/eth/check_finalty.go:156 | the "not ready to mint" log concatenates the yes and no counts with no separator, so 1 yes / 23 no and 12 yes / 3 no give the same log |
| EthFinality.RemintAfterRefusedRelease | action/eth/check_finalty.go:104-184 | when the first Released write is refused, the credit stays and the tracker is not saved, so the same report delivered again finalizes and mints again: the locker's holding grows by twice the lock amount |
| Governance.CancelSigners | action/governance/cancelProposal.go:129-131 | the proposer is the only signer |
| Governance.CancelTags | action/governance/cancelProposal.go:137-159 | four tags in order: tx.type the PROPOSAL_CANCEL name, tx.proposalID the id, tx.proposer the proposer's bytes, tx.reason the reason |
| Governance.ValidateCancel | action/governance/cancelProposal.go:28-57 | passes iff it decodes, is signed, pays its fee, and has a valid proposal id and proposer address; an invalid id or proposer has its own error |
| Governance.CancelProcessFee | action/governance/cancelProposal.go:64-66 | the shared fee handling with multiplier 2 |
| Governance.CancelledDescription | action/governance/cancelProposal.go:109-112 | the description gets " - Canceled" and, for a non-empty reason, "for reason: <reason>" with no separator |
| Governance.CancelledProposal | action/governance/cancelProposal.go:107-112 | the cancelled proposal is Completed/Cancelled with that description and otherwise unchanged |
| Governance.CancelFailure | action/governance/cancelProposal.go:89-124 | every failure after the lookup logs "cancel proposal failed, id= <id>, <reason>" and emits no event |
| Governance.ProposalStore.constructor | action/governance/cancelProposal.go:80-124 | a store built from ACTIVE and FAILED maps that key every proposal by its own id satisfies `Valid`, the invariant the cancel handler keeps |
| Governance.ProposalStore.SetFailed | action/governance/cancelProposal.go:113-117 | the FAILED store receives the proposal under its own id; ACTIVE is untouched |
| Governance.ProposalStore.DeleteActive | action/governance/cancelProposal.go:120-124 | a delete succeeds only if the id was present and the store did not fail; FAILED is untouched |
| Governance.RunCancel | action/governance/cancelProposal.go:73-127 | succeeds iff the proposal is ACTIVE, in Funding, at or before its deadline, asked for by its own proposer, and both writes succeed; then it moves to FAILED as cancelled, is deleted from ACTIVE and the success event is emitted; each guard failure and a refused FAILED write change nothing and log their own message; a failed delete leaves the cancelled proposal in both stores and logs the delete failure |
| Governance.WithdrawSigners | action/governance/withdrawProposal.go:167-169 | the contributor is the only signer |
| Governance.WithdrawProcessFee | action/governance/withdrawProposal.go:76-78 | the shared fee handling with multiplier 1 |
| Governance.WithdrawTags | action/governance/withdrawProposal.go:175-202 | five tags in order: tx.type the PROPOSAL_WITHDRAW name, tx.proposalID the id, tx.contributor the contributor's bytes, tx.withdrawValue the amount's rendering, tx.beneficiary the beneficiary's bytes |
| Governance.UnmarshalAsWritten | action/governance/withdrawProposal.go:208-210 | as written, decoding fails on every input |
| Governance.Unmarshal | action/governance/withdrawProposal.go:208-210 | as intended, decoding yields the JSON decoder's answer for the bytes |
| Governance.UnmarshalRoundTrip | action/governance/withdrawProposal.go:204-210 | with a decoder that inverts the encoder, the intended `Unmarshal` gives back the marshalled message and the one as written does not |
| Governance.ValidateWithdraw | action/governance/withdrawProposal.go:24-64 | wrong type, signature and fee each fail with their error; a missing currency id 0 panics; a currency other than its name is an invalid amount; an invalid contributor, then an invalid beneficiary, is an invalid address with its own message; passes iff all checks hold |
| Governance.AsWrittenValidateAlwaysRejects | action/governance/withdrawProposal.go:26-29 | with the value-receiver `Unmarshal`, every withdraw is rejected as the wrong transaction type |
| Governance.CorrectedValidateAccepts | action/governance/withdrawProposal.go:208-210 | with a pointer-receiver `Unmarshal`, a well-formed withdraw passes `Validate`; the same bytes fail as written |
| Governance.FundStore.DeductFunds | action/governance/withdrawProposal.go:135 | the contributor's fund drops by the amount; a failing store changes nothing |
| Governance.Deducted | action/governance/withdrawProposal.go:124-135 | the contributor's fund for the proposal drops by the amount and stays non-negative; every other fund and the key set are kept |
| Governance.StatusAfterWithdraw | action/governance/withdrawProposal.go:109-110 | Withdrawing/InsufficientFunds, or WithdrawCompleted/Cancelled when the funds read before the deduction were 0 |
| Governance.RunWithdraw | action/governance/withdrawProposal.go:80-165 | succeeds iff the proposal exists, missed its goal and passed its deadline, the contributor's fund covers the amount, and both writes succeed; then the fund drops by the amount, the beneficiary is credited `ToCoin` of it and the success event is emitted; an undecodable payload gets an empty response; a missing proposal, an unmet requirement, a missing or short fund and a failed deduction each emit their own event and change nothing; a refused credit emits its event and leaves the deduction in place |
| Governance.RunWithdrawAsWritten | action/governance/withdrawProposal.go:81-85 | as written, `runWithdraw` fails with an empty response and changes no fund or balance |
| BtcBroadcast.Placed | event/btc_broadcast.go:64-68 | the signature slice has one slot per signature |
| BtcBroadcast.SlotOfUniqueIndex | event/btc_broadcast.go:65-68 | a signature whose index no other shares ends up in that slot (induction over the signatures) |
| BtcBroadcast.PlacedInIndexOrder | event/btc_broadcast.go:63-68 | with distinct in-range indices, every signature sits at its own index |
| BtcBroadcast.PlaceSignatures | event/btc_broadcast.go:63-68 | the loop succeeds iff every index is below the signature count, and then yields `Placed`; an out-of-range index panics |
| BtcBroadcast.PushCount | event/btc_broadcast.go:71-76 | at most the number of slots, and at most M+1 |
| BtcBroadcast.SignaturePushes | event/btc_broadcast.go:70-76 | OP_FALSE, then the slots in index order, M+1 of them at most |
| BtcBroadcast.SigScript | event/btc_broadcast.go:70-84 | starts with OP_FALSE, ends with the lock script, and holds the slots in order in between |
| BtcBroadcast.PushSignatures | event/btc_broadcast.go:70-76 | the builder loop with its break produces exactly `SignaturePushes` |
| BtcBroadcast.JobBTCBroadcast.NewBTCBroadcastJob | event/btc_broadcast.go:33-43 | a new job has status New, the BTC broadcast type, the tracker name, and the clock in decimal as its id |
| BtcBroadcast.JobBTCBroadcast.GetJobID | event/btc_broadcast.go:165-167 | the job's id |
| BtcBroadcast.JobBTCBroadcast.IsDone | event/btc_broadcast.go:169-171 | done iff status is Completed |
| BtcBroadcast.JobBTCBroadcast.DoMyJob | event/btc_broadcast.go:45-156 | a lookup, decoding, lock-script, serialisation or connection failure stops before broadcasting; otherwise it broadcasts `SigScript` of the placed signatures; only a successful broadcast with a marshalled message submits BTC_BROADCAST_SUCCESS with an empty fee and Memo = JobID |
| EthBroadcast.StatusAfterRetry | event/eth_broadcast.go:26-31 | Failed once the retry count passes the bound; otherwise New becomes InProgress and any other status is kept |
| EthBroadcast.RunCopy | event/eth_broadcast.go:22-60 | the copy has one more retry; it is Completed iff the broadcast went through; otherwise it keeps the retry-step status |
| EthBroadcast.DoMyJob | event/eth_broadcast.go:22-60 | the step-by-step updates, with the bound `Max_Retry_Count`, leave the receiver's copy as `RunCopy` describes |
| EthBroadcast.GetJobID | event/eth_broadcast.go:79-81 | always "We should make a Job ID" |
| EthBroadcast.IsDone | event/eth_broadcast.go:83-88 | done iff status is Completed |
| EthBroadcast.FailedIsOverwrittenByBroadcast | event/eth_broadcast.go:26-59 | past `Max_Retry_Count` the status becomes Failed, yet a broadcast that goes through still ends Completed |
| SerializeAdapter.TestStuffAd.Data | node/serialize/example_adapter.go:27-29 | F, A, B, C, H are copied into X, Y, Z, J, K |
| SerializeAdapter.TestStuffAd.NewDataInstance | node/serialize/example_adapter.go:23-25 | zero-valued data |
| SerializeAdapter.TestStuffAd.SetData | node/serialize/example_adapter.go:31-44 | wrong type: "Wrong data" and no change; a nil pointer panics; otherwise all five fields are overwritten |
| SerializeAdapter.SerialTag | node/serialize/example_adapter.go:46-48 | the empty tag |
| SerializeAdapter.Primitive | node/serialize/example_adapter.go:50-59 | a new record holding X, Y, Z, J, K as F, A, B, C, H |
| SerializeAdapter.RoundTrip | node/serialize/example_adapter.go:27-29 | `Primitive(Data(t))` is a new record equal to t field by field |
| SerializeAdapter.DataRoundTrip | node/serialize/example_adapter.go:50-59 | data converted to a record and back is unchanged |

## Left out

- I/O and transport are left out: logging, `fmt.Println`, RPC clients, chain drivers, `BroadcastTx` and `InternalBroadcast`. Their answers are parameters (`connectOk`, `broadcastHash`, `progress`).
- Packages outside this model are abstract parameters:
  - JSON decoding, `ValidateBasic` and `ValidateFee`;
  - Bitcoin wire `Deserialize`, and `ParseLock`/`ParseRedeem`;
  - `IsAvailable`, and the tracker vote operations `Finalized`, `AddVote` and `GetVotes`;
  - `GetBTCScriptAddress`, `QueryAllStores` and `GetCurrentFunds`;
  - the answers of every store write.
  No quorum or duplicate-vote rule is invented for them.
- `GetCurrentFundsByContributor` and `DeductFunds` belong to the proposal fund store. They are modelled over one map from (proposal id, contributor) to amount (`Governance.FundStore`). The lookup returns the entry at that key, and a missing entry takes the lookup's error path. The deduction subtracts at that key, or changes nothing when the store fails.
- `CheckIfVoted` is only logged, so it is not modelled.
- `BasicFeeHandling` is named by its multiplier only. The fee charging itself is outside this model.
- The error of `NewBTCMultiSig` is ignored by the source and not modelled. The multisig is recorded as its message, threshold and participant list.
- `GetValidatorSet` errors are ignored by the source. The validators are a parameter.
- `Amount.String` is JSON rendering and is a parameter (`valueText`).
- The values of `BTC_LOCK`, `BTC_BROADCAST_SUCCESS`, `ETH_REPORT_FINALITY_MINT`, `PROPOSAL_CANCEL`, `PROPOSAL_WITHDRAW`, `Max_Retry_Count` and `JobTypeBTCBroadcast` are declared in files outside this model. They are uninterpreted constants here.
- `ActionType.TypeString`: only `SEND` and `APPLYVALIDATOR` are known values. The other constants render as whatever `String` gives them.
- `Fees.FeeOption.ComputedMinFee`: the exponent `Decimal − MinFeeDecimal` is an `int64` subtraction in the source. The model computes it without overflow. Only values near the int64 limits differ.
- `Fees.Reward.NewReward`: the source stores the caller's `*Amount` pointer, and the model stores its value. Pointer aliasing between a reward and its caller is not modelled.
- `Balance.ZeroCoin`: the zero `Coin{}` has a nil amount, which is read as 0 here.
- `EthFinality.RunCheckFinality`: when the tracker lookup fails, the source goes on with a nil tracker, and the model reports this as `Panicked`. It does not model what the tracker package does with a nil receiver.
- `BtcBroadcast.JobBTCBroadcast.DoMyJob`: `AddLockSignature` and `Serialize` are outside this model. The result is the signature script that the job hands over for broadcasting. A nil `Multisig` is not modelled.
- `SerializeAdapter.TestStuffAd.Data`: in Go the data shares the `C` slice with the record. Sequences here are values, so that aliasing is not modelled. `float64` values are bit patterns that are only copied.
- `EthBroadcast.DoMyJob` returns the receiver's copy. The caller's job is unchanged by construction.

## Findings

| source | as written | input that shows it | evidently intended | confidence | as-written member | corrected member |
|---|---|---|---|---|---|---|
| action/governance/withdrawProposal.go:208-210 | `Unmarshal` has a value receiver and passes a non-pointer to `json.Unmarshal`, which always returns an error. `Validate` and `runWithdraw` therefore reject every withdraw transaction. | any `WithdrawProposal` JSON, e.g. a well-formed withdraw of the default currency with valid addresses | a pointer receiver, so that the payload is decoded into the message | high, not executed | Governance.AsWrittenValidateAlwaysRejects | Governance.CorrectedValidateAccepts |

=== FILE: action.dfy ===
/**
 * Shared vocabulary of the transaction handlers (action/types.go and the
 * handler contract): amounts, responses and tags, the error taxonomy, Go's
 * 64-bit integers and decimal rendering.
 */
module Action {
  import opened Wrappers
  import opened Keys
  import opened Balance

  /** The errors a handler reports. `Panic` stands for a Go run-time panic. */
  datatype Error =
    | WrongTxType
    | InvalidSignature
    | InsufficientFee
    | MissingData
    | InvalidAmount
    | InvalidAddress(what: string)
    | InvalidProposalId
    | TrackerNotFound
    | TrackerNotAvailable
    | TrackerMismatch
    | Panic(reason: string)

  /** Go's `int64`. */
  newtype int64 = x: int | -0x8000_0000_0000_0000 <= x < 0x8000_0000_0000_0000

  const TwoTo64: int := 0x1_0000_0000_0000_0000

  /** Go's `+` on `int64`: two's-complement wrap-around. */
  function AddInt64(a: int64, b: int64): (r: int64)
    ensures r as int == a as int + b as int
         || r as int == a as int + b as int - TwoTo64
         || r as int == a as int + b as int + TwoTo64
    ensures InInt64Range(a as int + b as int) ==> r as int == a as int + b as int
  {
    var s := a as int + b as int;
    if s >= 0x8000_0000_0000_0000 then (s - TwoTo64) as int64
    else if s < -0x8000_0000_0000_0000 then (s + TwoTo64) as int64
    else s as int64
  }

  predicate InInt64Range(x: int)
  {
    -0x8000_0000_0000_0000 <= x < 0x8000_0000_0000_0000
  }

  function DigitsOf(n: nat): (s: string)
    ensures |s| > 0
    ensures forall i :: 0 <= i < |s| ==> '0' <= s[i] <= '9'
    decreases n
  {
    if n < 10 then ['0' + n as char] else DigitsOf(n / 10) + ['0' + (n % 10) as char]
  }

  /** `strconv.Itoa` / `strconv.FormatInt(n, 10)`: base-10 digits, "-" before a negative value. */
  function DecimalString(n: int): (s: string)
    ensures |s| > 0
    ensures s[0] == '-' <==> n < 0
    ensures n < 0 ==> s[1..] == DigitsOf(-n)
    ensures n >= 0 ==> s == DigitsOf(n)
  {
    if n < 0 then "-" + DigitsOf(-n) else DigitsOf(n)
  }

  /** The number a string of decimal digits denotes, most significant first. */
  function DigitsValue(s: string): (v: int)
    requires forall i :: 0 <= i < |s| ==> '0' <= s[i] <= '9'
    ensures v >= 0
  {
    if s == [] then 0 else 10 * DigitsValue(s[..|s| - 1]) + (s[|s| - 1] - '0') as int
  }

  /** A decimal rendering read back: an optional "-" and the value of the digits. */
  function ParseDecimal(s: string): (n: int)
    requires |s| > 0
    requires forall i :: 0 < i < |s| ==> '0' <= s[i] <= '9'
    requires s[0] != '-' ==> '0' <= s[0] <= '9'
  {
    if s[0] == '-' then -DigitsValue(s[1..]) else DigitsValue(s)
  }

  /** The digits of `n` read back give `n`. */
  lemma {:induction false} DigitsOfRoundTrip(n: nat)
    ensures DigitsValue(DigitsOf(n)) == n
  {
    var s := DigitsOf(n);
    if n >= 10 {
      DigitsOfRoundTrip(n / 10);
      assert s[..|s| - 1] == DigitsOf(n / 10);
    }
  }

  /** Reading back `DecimalString(n)` gives `n`. */
  lemma DecimalRoundTrip(n: int)
    ensures ParseDecimal(DecimalString(n)) == n
  {
    if n < 0 {
      DigitsOfRoundTrip(-n);
    } else {
      DigitsOfRoundTrip(n);
    }
  }

  /** Distinct numbers render as distinct decimal strings. */
  lemma DecimalStringInjective(a: int, b: int)
    requires DecimalString(a) == DecimalString(b)
    ensures a == b
  {
    DecimalRoundTrip(a);
    DecimalRoundTrip(b);
  }

  /** A tag value is either text converted to bytes or raw address bytes. */
  datatype TagValue = Text(text: string) | Raw(bytes: seq<byte>)

  datatype KVPair = KVPair(key: string, value: TagValue)

  /** `action.GetEvent(tags, name)`: an event of that name carrying the tags. */
  datatype Event = Event(name: string, tags: seq<KVPair>)

  /** `action.Response`, restricted to the fields the handlers fill in. */
  datatype Response = Response(log: string, info: string, tags: seq<KVPair>, events: seq<Event>)

  const EmptyResponse := Response("", "", [], [])

  function LogResponse(log: string): Response
  {
    Response(log, "", [], [])
  }

  function EventResponse(tags: seq<KVPair>, name: string): Response
  {
    Response("", "", [], [Event(name, tags)])
  }

  /**
   * What a handler's `ProcessFee` does: hand the transaction to the shared
   * `BasicFeeHandling` with a per-type multiplier, or succeed without charging.
   */
  datatype FeeHandling = BasicFeeHandling(multiplier: nat) | NoFee

  /** `action.Amount`: a currency name and a value, as received over the network. */
  datatype Amount = Amount(currency: string, value: int)

  /** `NewAmount(currency, amount)`. */
  function NewAmount(currency: string, value: int): (a: Amount)
    ensures a.currency == currency && a.value == value
  {
    Amount(currency, value)
  }

  /**
   * `Amount.IsValid`: the currency must be registered, and then the coin built
   * from the value must be valid; coin validity belongs to the balance
   * package and is the parameter `coinValid`.
   */
  function IsValid(a: Amount, list: CurrencyList, coinValid: Coin -> bool): (r: bool)
    ensures a.currency !in list.byName ==> !r
    ensures a.currency in list.byName ==> r == coinValid(Coin(list.byName[a.currency], a.value))
  {
    match list.GetCurrencyByName(a.currency)
    case None => false
    case Some(c) => coinValid(NewCoinFromAmount(c, a.value))
  }

  /** `Amount.ToCoin`: the zero coin for an unknown currency, else a coin of the registered currency. */
  function ToCoin(a: Amount, list: CurrencyList): (c: Coin)
    ensures a.currency !in list.byName ==> c == ZeroCoin
    ensures a.currency in list.byName ==> c.currency == list.byName[a.currency] && c.amount == a.value
  {
    match list.GetCurrencyByName(a.currency)
    case None => ZeroCoin
    case Some(cur) => NewCoinFromAmount(cur, a.value)
  }

  /** A coin from `ToCoin` names the amount's own currency whenever that currency is registered under its name. */
  lemma ToCoinKeepsCurrencyName(a: Amount, list: CurrencyList)
    requires a.currency in list.byName && list.byName[a.currency].name == a.currency
    ensures ToCoin(a, list).currency.name == a.currency
    ensures ToCoin(a, list).amount == a.value
  {
  }
}

=== FILE: action_init.dfy ===
/**
 * Transaction type codes (action/init.go). Only SEND and APPLYVALIDATOR are
 * declared in that file; the codes of the bridge and governance transaction
 * types are declared in files that are not part of this model, so they are
 * constants whose values the model leaves open.
 */
module ActionType {

  /** Go's `type Type int`. */
  newtype Type = x: int | -0x8000_0000_0000_0000 <= x < 0x8000_0000_0000_0000

  const SEND: Type := 0
  const APPLYVALIDATOR: Type := 1

  // Codes declared outside action/init.go.
  const BTC_LOCK: Type
  const BTC_BROADCAST_SUCCESS: Type
  const ETH_REPORT_FINALITY_MINT: Type
  const PROPOSAL_CANCEL: Type
  const PROPOSAL_WITHDRAW: Type

  /** `Type.String`: the two declared codes have names, every other code is "UNKNOWN". */
  function TypeString(t: Type): (s: string)
    ensures s == "SEND" <==> t == SEND
    ensures s == "APPLY_VALIDATOR" <==> t == APPLYVALIDATOR
    ensures s == "UNKNOWN" <==> t != SEND && t != APPLYVALIDATOR
  {
    match t
    case 0 => "SEND"
    case 1 => "APPLY_VALIDATOR"
    case _ => "UNKNOWN"
  }
}

=== FILE: balance.dfy ===
/**
 * The parts of the balance package the handlers use: currencies, coins, the
 * currency registry and the balance ledger. The package itself is not part
 * of this model; these are its interfaces as the handlers see them.
 * Amounts (`balance.Amount`, a big integer) are unbounded integers.
 */
module Balance {
  import opened Wrappers
  import opened Keys

  datatype Currency = Currency(id: int, name: string, decimal: int)

  /** The zero `Currency{}`. */
  const ZeroCurrency := Currency(0, "", 0)

  datatype Coin = Coin(currency: Currency, amount: int)

  /** The zero `Coin{}`; its nil amount is read as 0. */
  const ZeroCoin := Coin(ZeroCurrency, 0)

  /** `Currency.NewCoinFromAmount`: a coin of that currency holding the amount. */
  function NewCoinFromAmount(c: Currency, amount: int): (coin: Coin)
    ensures coin.currency == c && coin.amount == amount
  {
    Coin(c, amount)
  }

  /** The currency registry, looked up by name or by id. */
  datatype CurrencyList = CurrencyList(byName: map<string, Currency>, byId: map<int, Currency>)
  {
    function GetCurrencyByName(name: string): (r: Option<Currency>)
      ensures r.Some? <==> name in byName
      ensures r.Some? ==> r.value == byName[name]
    {
      if name in byName then Some(byName[name]) else None
    }

    function GetCurrencyById(id: int): (r: Option<Currency>)
      ensures r.Some? <==> id in byId
      ensures r.Some? ==> r.value == byId[id]
    {
      if id in byId then Some(byId[id]) else None
    }
  }

  /** A ledger entry: what one address holds of one currency. */
  datatype Holding = Holding(owner: Address, currency: string)

  /** The holdings after `coin` is added to `owner`; an absent entry counts as 0. */
  function Credit(holdings: map<Holding, int>, owner: Address, coin: Coin): (r: map<Holding, int>)
    ensures Holding(owner, coin.currency.name) in r
    ensures r[Holding(owner, coin.currency.name)] == HeldBy(holdings, owner, coin.currency.name) + coin.amount
    ensures forall h :: h in holdings && h != Holding(owner, coin.currency.name) ==> h in r && r[h] == holdings[h]
    ensures r.Keys == holdings.Keys + {Holding(owner, coin.currency.name)}
  {
    var h := Holding(owner, coin.currency.name);
    holdings[h := HeldBy(holdings, owner, coin.currency.name) + coin.amount]
  }

  function HeldBy(holdings: map<Holding, int>, owner: Address, currency: string): int
  {
    var h := Holding(owner, currency);
    if h in holdings then holdings[h] else 0
  }

  /** The balance ledger (`ctx.Balances`). */
  class BalanceLedger {
    var holdings: map<Holding, int>

    constructor (initial: map<Holding, int>)
      ensures holdings == initial
    {
      holdings := initial;
    }

    /**
     * `AddToAddress`: credit `coin` to `owner`. Whether the ledger refuses the
     * write is decided inside the balance package; `refused` is its answer.
     */
    method AddToAddress(owner: Address, coin: Coin, refused: bool) returns (ok: bool)
      modifies this
      ensures ok == !refused
      ensures holdings == if ok then Credit(old(holdings), owner, coin) else old(holdings)
    {
      ok := !refused;
      if ok {
        holdings := Credit(holdings, owner, coin);
      }
    }
  }
}

=== FILE: btc_broadcast.dfy ===
/**
 * The Bitcoin broadcast job (`event/btc_broadcast.go`): it gathers the
 * validators' signatures of a tracker's unsigned lock transaction into a
 * signature script, broadcasts the signed transaction and, on success,
 * submits a BTC_BROADCAST_SUCCESS transaction to the chain.
 */
module BtcBroadcast {
  import opened Wrappers
  import opened Keys
  import opened Balance
  import opened Action
  import opened ActionType
  import opened Jobs

  /** `JobTypeBTCBroadcast`, declared elsewhere in the event package. */
  const JobTypeBTCBroadcast: string

  /** One collected signature: the signer's slot `index` and the signature bytes. */
  datatype BtcSignature = BtcSignature(index: int, sign: seq<byte>)

  /** The tracker fields the job reads. */
  datatype JobTracker = JobTracker(
    name: string,
    processUnsignedTx: seq<byte>,
    signatures: seq<BtcSignature>,
    m: int,
    currentLockScriptAddress: seq<byte>)

  /** The items a `txscript` builder is given. */
  datatype ScriptItem = OpFalse | PushData(data: seq<byte>) | PushFullData(full: seq<byte>)

  /** `action.Fee`: a price and a gas limit. */
  datatype Fee = Fee(price: Coin, gas: int)

  /** The internal transaction the job submits. */
  datatype RawTx = RawTx(txType: ActionType.Type, data: seq<byte>, fee: Fee, memo: string)

  /**
   * One run of `DoMyJob`: it stopped before broadcasting, panicked on a
   * signature index, or broadcast `sigScript` and then possibly submitted
   * an internal transaction.
   */
  datatype Run = Stopped(reason: string) | Panicked | Broadcast(sigScript: seq<ScriptItem>, internal: Option<RawTx>)

  /** Whether every signature names a slot inside a slice of `|sigs|` entries. */
  predicate IndicesInRange(sigs: seq<BtcSignature>)
  {
    forall j :: 0 <= j < |sigs| ==> 0 <= sigs[j].index < |sigs|
  }

  /** What slot `k` holds after storing the signatures in order: the last one for `k` wins, empty if none. */
  function SlotValue(sigs: seq<BtcSignature>, k: int): seq<byte>
  {
    if |sigs| == 0 then []
    else if sigs[|sigs| - 1].index == k then sigs[|sigs| - 1].sign
    else SlotValue(sigs[..|sigs| - 1], k)
  }

  /** The signature slice once every signature has been stored at its index. */
  function Placed(sigs: seq<BtcSignature>): (placed: seq<seq<byte>>)
    ensures |placed| == |sigs|
  {
    seq(|sigs|, k requires 0 <= k < |sigs| => SlotValue(sigs, k))
  }

  /** A signature whose index no other signature shares is found in its own slot. */
  lemma {:induction false} SlotOfUniqueIndex(sigs: seq<BtcSignature>, j: int)
    requires 0 <= j < |sigs|
    requires forall i :: 0 <= i < |sigs| && i != j ==> sigs[i].index != sigs[j].index
    ensures SlotValue(sigs, sigs[j].index) == sigs[j].sign
  {
    if j < |sigs| - 1 {
      var init := sigs[..|sigs| - 1];
      assert sigs[|sigs| - 1].index != sigs[j].index;
      assert init[j] == sigs[j];
      forall i | 0 <= i < |init| && i != j
        ensures init[i].index != init[j].index
      {
        assert init[i] == sigs[i];
      }
      SlotOfUniqueIndex(init, j);
    }
  }

  /** With distinct indices in range, `Placed` puts every signature at its own index. */
  lemma PlacedInIndexOrder(sigs: seq<BtcSignature>, j: int)
    requires IndicesInRange(sigs) && 0 <= j < |sigs|
    requires forall i, i' :: 0 <= i < i' < |sigs| ==> sigs[i].index != sigs[i'].index
    ensures Placed(sigs)[sigs[j].index] == sigs[j].sign
  {
    forall i | 0 <= i < |sigs| && i != j
      ensures sigs[i].index != sigs[j].index
    {
      if i < j {
        assert sigs[i].index != sigs[j].index;
      } else {
        assert sigs[j].index != sigs[i].index;
      }
    }
    SlotOfUniqueIndex(sigs, j);
  }

  /**
   * The placement loop of `DoMyJob`: store each signature at its `Index` in a slice sized to the
   * number of signatures; an index outside the slice is a run-time panic
   * (`None`).
   */
  method PlaceSignatures(sigs: seq<BtcSignature>) returns (placed: Option<seq<seq<byte>>>)
    ensures placed.Some? <==> IndicesInRange(sigs)
    ensures placed.Some? ==> placed.value == Placed(sigs)
  {
    var slots := new seq<byte>[|sigs|](_ => []);
    var i := 0;
    while i < |sigs|
      invariant 0 <= i <= |sigs|
      invariant forall j :: 0 <= j < i ==> 0 <= sigs[j].index < |sigs|
      invariant forall k :: 0 <= k < slots.Length ==> slots[k] == SlotValue(sigs[..i], k)
    {
      var index := sigs[i].index;
      if index < 0 || index >= slots.Length {
        return None;
      }
      slots[index] := sigs[i].sign;
      assert sigs[..i + 1][..i] == sigs[..i];
      i := i + 1;
    }
    assert sigs[..i] == sigs;
    placed := Some(slots[..]);
  }

  /** How many signatures the builder loop pushes: it stops after position `m`. */
  function PushCount(n: nat, m: int): (c: nat)
    ensures c <= n
    ensures m >= 0 ==> c <= m + 1
  {
    if 0 <= m < n then m + 1 else n
  }

  /**
   * The script built before the lock script is added: `OP_FALSE`, then the
   * signatures in slot order up to and including position `m`.
   */
  function SignaturePushes(placed: seq<seq<byte>>, m: int): (s: seq<ScriptItem>)
    ensures |s| == PushCount(|placed|, m) + 1 && s[0] == OpFalse
    ensures forall k :: 0 <= k < |s| - 1 ==> s[k + 1] == PushData(placed[k])
  {
    [OpFalse] + seq(PushCount(|placed|, m), k requires 0 <= k < PushCount(|placed|, m) => PushData(placed[k]))
  }

  /** The complete signature script: the pushes, then the lock script. */
  function SigScript(placed: seq<seq<byte>>, m: int, lockScript: seq<byte>): (s: seq<ScriptItem>)
    ensures |s| >= 2 && s[0] == OpFalse && s[|s| - 1] == PushFullData(lockScript)
    ensures |s| <= |placed| + 2 && (m >= 0 ==> |s| <= m + 3)
    ensures forall k :: 0 <= k < |s| - 2 ==> s[k + 1] == PushData(placed[k])
  {
    SignaturePushes(placed, m) + [PushFullData(lockScript)]
  }

  /**
   * The builder loop of `DoMyJob`: OP_FALSE, then the placed signatures in
   * slot order, stopping after position M.
   */
  method PushSignatures(placed: seq<seq<byte>>, m: int) returns (builder: seq<ScriptItem>)
    ensures builder == SignaturePushes(placed, m)
  {
    builder := [OpFalse];
    var i := 0;
    while i < |placed|
      invariant 0 <= i <= |placed|
      invariant !(0 <= m < i)
      invariant builder == [OpFalse] + seq(i, k requires 0 <= k < i => PushData(placed[k]))
    {
      builder := builder + [PushData(placed[i])];
      if i == m {
        assert builder == SignaturePushes(placed, m);
        return;
      }
      i := i + 1;
    }
  }

  /** The Bitcoin broadcast job. */
  class JobBTCBroadcast {
    var jobType: string
    var trackerName: string
    var jobId: string
    var status: Status

    /**
     * `NewBTCBroadcastJob`: a new job for `trackerName`, identified by the
     * decimal rendering of the clock reading `nowNanos`.
     */
    constructor NewBTCBroadcastJob(trackerName: string, nowNanos: int)
      ensures this.jobType == JobTypeBTCBroadcast && this.trackerName == trackerName
      ensures this.jobId == DecimalString(nowNanos) && this.status == New
    {
      this.jobType := JobTypeBTCBroadcast;
      this.trackerName := trackerName;
      this.jobId := DecimalString(nowNanos);
      this.status := New;
    }

    /** `GetJobID`. */
    function GetJobID(): (id: string)
      reads this
      ensures id == jobId
    {
      jobId
    }

    /** `IsDone`: the job is done exactly when its status is Completed. */
    function IsDone(): (r: bool)
      reads this
      ensures r <==> status == Completed
    {
      status == Completed
    }

    /**
     * `DoMyJob`. The tracker store, the transaction decoder, the lock-script
     * store and the outcomes of serialising, connecting, broadcasting and
     * marshalling the success message are parameters. The job's own fields
     * are read and never written: a run leaves `status` as it was.
     */
    method DoMyJob(
      trackers: map<string, JobTracker>, deserializes: seq<byte> -> bool,
      lockScripts: map<seq<byte>, seq<byte>>, serializeOk: bool, connectOk: bool,
      broadcastHash: Option<seq<byte>>, marshalled: Option<seq<byte>>)
      returns (r: Run)
      ensures trackerName !in trackers ==> r.Stopped?
      ensures (trackerName in trackers && !deserializes(trackers[trackerName].processUnsignedTx)) ==> r.Stopped?
      ensures (trackerName in trackers && deserializes(trackers[trackerName].processUnsignedTx)) ==>
                (r.Panicked? <==> !IndicesInRange(trackers[trackerName].signatures))
      ensures (trackerName in trackers && IndicesInRange(trackers[trackerName].signatures)
               && trackers[trackerName].currentLockScriptAddress !in lockScripts) ==> r.Stopped? || r.Panicked?
      ensures r.Broadcast? ==>
                trackerName in trackers && serializeOk && connectOk
                && var t := trackers[trackerName];
                   t.currentLockScriptAddress in lockScripts
                   && r.sigScript == SigScript(Placed(t.signatures), t.m, lockScripts[t.currentLockScriptAddress])
      ensures r.Broadcast? ==> (r.internal.Some? <==> broadcastHash.Some? && marshalled.Some?)
      ensures r.Broadcast? && r.internal.Some? ==>
                r.internal.value == RawTx(BTC_BROADCAST_SUCCESS, marshalled.value, Fee(ZeroCoin, 0), jobId)
      ensures r.Broadcast? <==>
                trackerName in trackers
                && var t := trackers[trackerName];
                   deserializes(t.processUnsignedTx) && IndicesInRange(t.signatures)
                   && t.currentLockScriptAddress in lockScripts && serializeOk && connectOk
    {
      if trackerName !in trackers {
        return Stopped("err trying to deserialize tracker");
      }
      var tracker := trackers[trackerName];
      if !deserializes(tracker.processUnsignedTx) {
        return Stopped("err trying to deserialize btc txn");
      }
      var placed := PlaceSignatures(tracker.signatures);
      if placed.None? {
        return Panicked;
      }
      var builder := PushSignatures(placed.value, tracker.m);
      if tracker.currentLockScriptAddress !in lockScripts {
        return Stopped("err trying to get lockscript");
      }
      var lockScript := lockScripts[tracker.currentLockScriptAddress];
      builder := builder + [PushFullData(lockScript)];
      if !serializeOk {
        return Stopped("err trying to serialize btc final txn");
      }
      if !connectOk {
        return Stopped("err trying to connect to bitcoin node");
      }
      if broadcastHash.None? {
        return Broadcast(builder, None);
      }
      if marshalled.None? {
        return Broadcast(builder, None);
      }
      var tx := RawTx(BTC_BROADCAST_SUCCESS, marshalled.value, Fee(ZeroCoin, 0), jobId);
      r := Broadcast(builder, Some(tx));
    }
  }
}

=== FILE: btc_lock.dfy ===
/**
 * The Bitcoin lock handler (action/btc/ext_lock.go). A user locks bitcoin
 * into the custody address a named tracker watches; `Validate` checks the
 * custody chain, `ProcessCheck`/`ProcessDeliver` reserve the tracker: they
 * record the process owner and balance and a multisignature skeleton over
 * the user's transaction for the current validator set.
 */
module BtcLock {
  import opened Wrappers
  import opened Keys
  import opened Action
  import opened ActionType

  type Hash = seq<byte>

  /** A spent output: the hash of the transaction that made it and its position there. */
  datatype OutPoint = OutPoint(hash: Hash, index: int)

  /** The parts of a decoded Bitcoin transaction the handler reads: the inputs' spent outputs and the outputs' values. */
  datatype BtcTx = BtcTx(inputs: seq<OutPoint>, outputValues: seq<int64>)

  /** The bitcoin tracker's states; the handlers here never change them. */
  datatype TrackerState = Available | Requested | Processing | Released

  datatype ProcessType = ProcessTypeNone | ProcessTypeLock | ProcessTypeRedeem

  /** `keys.NewBTCMultiSig(msg, m, signers)`: an m-of-n signature set over `msg`. */
  datatype MultiSig = MultiSig(msg: seq<byte>, m: int, signers: seq<Address>)

  /** `bitcoin.Tracker`, restricted to the fields the handlers read or write. */
  datatype Tracker = Tracker(
    name: string,
    state: TrackerState,
    processType: ProcessType,
    processOwner: Address,
    currentBalance: int64,
    processBalance: int64,
    currentTxId: Option<Hash>,
    processUnsignedTx: seq<byte>,
    multisig: Option<MultiSig>)

  /** The `Lock` message. */
  datatype Lock = Lock(locker: Address, trackerName: string, btcTxn: seq<byte>, lockAmount: int64)

  /** `Lock.Signers`: the locker alone must sign. */
  function Signers(lock: Lock): (s: seq<Address>)
    ensures |s| == 1 && s[0] == lock.locker
  {
    [lock.locker]
  }

  /** `Lock.Tags`: the transaction type and the locker. */
  function Tags(lock: Lock): (tags: seq<KVPair>)
    ensures |tags| == 2
    ensures tags[0] == KVPair("tx.type", Text(TypeString(BTC_LOCK)))
    ensures tags[1] == KVPair("tx.locker", Raw(Bytes(lock.locker)))
  {
    [KVPair("tx.type", Text(TypeString(BTC_LOCK))), KVPair("tx.locker", Raw(Bytes(lock.locker)))]
  }

  /**
   * The multisignature threshold for `n` validators, `(n*2)/3 + 1`: the
   * smallest count that is strictly more than two thirds of `n`.
   */
  function Threshold(n: nat): (t: nat)
    ensures 3 * t > 2 * n
    ensures 3 * (t - 1) <= 2 * n
    ensures 1 <= t <= n + 1
  {
    (n * 2) / 3 + 1
  }

  lemma ThresholdOfFour()
    ensures Threshold(4) == 3
  {
  }

  /**
   * The custody-chain rule: a transaction with a single input is the first
   * one and must pay the locked amount plus the current balance in its first
   * output; any other transaction must spend output 0 of the tracker's
   * current transaction.
   */
  predicate ExtendsCustodyChain(t: Tracker, lock: Lock, tx: BtcTx)
  {
    if |tx.inputs| == 1 then
      |tx.outputValues| > 0 && tx.outputValues[0] == AddInt64(lock.lockAmount, t.currentBalance)
    else
      |tx.inputs| > 1 && t.currentTxId.Some? && tx.inputs[0] == OutPoint(t.currentTxId.value, 0)
  }

  /** Whether `Validate` gets past decoding, signatures, fee and the tracker checks to the transaction itself. */
  predicate ReachesTxCheck(
    payload: Option<Lock>, signaturesOk: bool, feeOk: bool,
    trackers: map<string, Tracker>, isAvailable: Tracker -> bool)
  {
    payload.Some? && signaturesOk && feeOk && payload.value.trackerName in trackers
    && isAvailable(trackers[payload.value.trackerName])
  }

  /**
   * `btcLockTx.Validate`. `payload` is the JSON decoding of the transaction
   * data, `signaturesOk` and `feeOk` the answers of `ValidateBasic` and
   * `ValidateFee`, `isAvailable` the tracker's own `IsAvailable` and
   * `deserialize` the Bitcoin wire decoder (whose error the source ignores).
   * Indexing the first input of a transaction without inputs, and
   * dereferencing a missing current transaction id, are Go panics.
   */
  function Validate(
    payload: Option<Lock>, signaturesOk: bool, feeOk: bool,
    trackers: map<string, Tracker>, isAvailable: Tracker -> bool,
    deserialize: seq<byte> -> BtcTx): (r: Outcome<Error>)
    ensures payload.None? ==> r == Fail(WrongTxType)
    ensures payload.Some? && !signaturesOk ==> r == Fail(InvalidSignature)
    ensures payload.Some? && signaturesOk && !feeOk ==> r == Fail(InsufficientFee)
    ensures payload.Some? && signaturesOk && feeOk && payload.value.trackerName !in trackers ==> r == Fail(TrackerNotFound)
    ensures (payload.Some? && signaturesOk && feeOk && payload.value.trackerName in trackers
             && !isAvailable(trackers[payload.value.trackerName])) ==> r == Fail(TrackerNotAvailable)
    // Past the tracker checks, the transaction itself decides.
    ensures ReachesTxCheck(payload, signaturesOk, feeOk, trackers, isAvailable) && |deserialize(payload.value.btcTxn).inputs| == 0 ==>
              r == Fail(Panic("index out of range: TxIn[0]"))
    ensures (ReachesTxCheck(payload, signaturesOk, feeOk, trackers, isAvailable)
             && |deserialize(payload.value.btcTxn).inputs| > 1
             && trackers[payload.value.trackerName].currentTxId.None?) ==>
              r == Fail(Panic("nil dereference: CurrentTxId"))
    ensures (ReachesTxCheck(payload, signaturesOk, feeOk, trackers, isAvailable)
             && |deserialize(payload.value.btcTxn).inputs| > 1
             && trackers[payload.value.trackerName].currentTxId.Some?
             && deserialize(payload.value.btcTxn).inputs[0] != OutPoint(trackers[payload.value.trackerName].currentTxId.value, 0)) ==>
              r == Fail(TrackerMismatch)
    ensures (ReachesTxCheck(payload, signaturesOk, feeOk, trackers, isAvailable)
             && |deserialize(payload.value.btcTxn).inputs| == 1
             && |deserialize(payload.value.btcTxn).outputValues| == 0) ==>
              r == Fail(Panic("index out of range: TxOut[0]"))
    ensures (ReachesTxCheck(payload, signaturesOk, feeOk, trackers, isAvailable)
             && |deserialize(payload.value.btcTxn).inputs| == 1
             && |deserialize(payload.value.btcTxn).outputValues| > 0
             && deserialize(payload.value.btcTxn).outputValues[0]
                != AddInt64(payload.value.lockAmount, trackers[payload.value.trackerName].currentBalance)) ==>
              r == Fail(TrackerMismatch)
    ensures r.Pass? <==>
            payload.Some? && signaturesOk && feeOk && payload.value.trackerName in trackers
            && isAvailable(trackers[payload.value.trackerName])
            && ExtendsCustodyChain(trackers[payload.value.trackerName], payload.value, deserialize(payload.value.btcTxn))
  {
    if payload.None? then Fail(WrongTxType)
    else if !signaturesOk then Fail(InvalidSignature)
    else if !feeOk then Fail(InsufficientFee)
    else
      var lock := payload.value;
      if lock.trackerName !in trackers then Fail(TrackerNotFound)
      else
        var tracker := trackers[lock.trackerName];
        if !isAvailable(tracker) then Fail(TrackerNotAvailable)
        else
          var tx := deserialize(lock.btcTxn);
          if |tx.inputs| == 0 then Fail(Panic("index out of range: TxIn[0]"))
          else
            var isFirstTxn := |tx.inputs| == 1;
            var op := tx.inputs[0];
            if !isFirstTxn && tracker.currentTxId.None? then Fail(Panic("nil dereference: CurrentTxId"))
            else if !isFirstTxn && op.hash != tracker.currentTxId.value then Fail(TrackerMismatch)
            else if !isFirstTxn && op.index != 0 then Fail(TrackerMismatch)
            else if isFirstTxn && |tx.outputValues| == 0 then Fail(Panic("index out of range: TxOut[0]"))
            else if isFirstTxn && tx.outputValues[0] != AddInt64(lock.lockAmount, tracker.currentBalance) then Fail(TrackerMismatch)
            else Pass
  }

  /** A later lock whose transaction spends anything but output 0 of the current transaction is rejected as a mismatch. */
  lemma UnrelatedSpendRejected(
    lock: Lock, trackers: map<string, Tracker>, isAvailable: Tracker -> bool,
    deserialize: seq<byte> -> BtcTx)
    requires lock.trackerName in trackers && isAvailable(trackers[lock.trackerName])
    requires var tx := deserialize(lock.btcTxn); var t := trackers[lock.trackerName];
             |tx.inputs| > 1 && t.currentTxId.Some? && tx.inputs[0] != OutPoint(t.currentTxId.value, 0)
    ensures Validate(Some(lock), true, true, trackers, isAvailable, deserialize) == Fail(TrackerMismatch)
  {
    var tx := deserialize(lock.btcTxn);
    var t := trackers[lock.trackerName];
    assert tx.inputs[0].hash != t.currentTxId.value || tx.inputs[0].index != 0;
  }

  /** What `GetBTCScriptAddress` answered for one validator: the address, and whether it reported an error. */
  datatype ScriptLookup = ScriptLookup(addr: Address, failed: bool)

  /** The script addresses of the validators, in validator order. */
  function ScriptAddresses(validators: seq<ScriptLookup>): (list: seq<Address>)
    ensures |list| == |validators|
    ensures forall i :: 0 <= i < |validators| ==> list[i] == validators[i].addr
  {
    seq(|validators|, i requires 0 <= i < |validators| => validators[i].addr)
  }

  /**
   * The participant loop of `ProcessCheck`/`ProcessDeliver`: one entry per
   * validator, in order; an address is appended even when its lookup
   * reported an error.
   */
  method BuildParticipants(validators: seq<ScriptLookup>) returns (list: seq<Address>)
    ensures list == ScriptAddresses(validators)
  {
    list := [];
    for i := 0 to |validators|
      invariant |list| == i
      invariant forall j :: 0 <= j < i ==> list[j] == validators[j].addr
    {
      // The source ignores the lookup error and appends the address anyway.
      list := list + [validators[i].addr];
    }
  }

  /**
   * The tracker after a lock reserves it: only the process fields and the
   * multisignature skeleton change. The state transition of the source is
   * commented out, so the state itself is kept.
   */
  function Reserve(t: Tracker, lock: Lock, threshold: int, participants: seq<Address>): (r: Tracker)
    ensures r.processType == ProcessTypeLock && r.processOwner == lock.locker
    ensures r.processBalance == AddInt64(t.currentBalance, lock.lockAmount)
    ensures r.processUnsignedTx == lock.btcTxn
    ensures r.multisig == Some(MultiSig(lock.btcTxn, threshold, participants))
    ensures r.name == t.name && r.state == t.state
    ensures r.currentBalance == t.currentBalance && r.currentTxId == t.currentTxId
  {
    t.(processType := ProcessTypeLock,
       processOwner := lock.locker,
       multisig := Some(MultiSig(lock.btcTxn, threshold, participants)),
       processBalance := AddInt64(t.currentBalance, lock.lockAmount),
       processUnsignedTx := lock.btcTxn)
  }

  /**
   * When `IsAvailable` reads only the state, a reserved tracker is exactly as
   * available as before: nothing in this handler stops a second lock on the
   * same tracker.
   */
  lemma ReservedStaysAvailableByState(
    t: Tracker, lock: Lock, threshold: int, participants: seq<Address>, isAvailable: Tracker -> bool)
    requires forall a: Tracker, b: Tracker :: a.state == b.state ==> isAvailable(a) == isAvailable(b)
    ensures Reserve(t, lock, threshold, participants).state == t.state
    ensures isAvailable(Reserve(t, lock, threshold, participants)) == isAvailable(t)
  {
  }

  /** The bitcoin tracker store (`ctx.BTCTrackers`). */
  class TrackerStore {
    var trackers: map<string, Tracker>

    constructor (initial: map<string, Tracker>)
      ensures trackers == initial
    {
      trackers := initial;
    }

    /** `SetTracker`: store `t` under `name` unless the store refuses the write. */
    method SetTracker(name: string, t: Tracker, refused: bool) returns (ok: bool)
      modifies this
      ensures ok == !refused
      ensures trackers == if ok then old(trackers)[name := t] else old(trackers)
    {
      ok := !refused;
      if ok {
        trackers := trackers[name := t];
      }
    }
  }

  function NotAvailableLog(name: string): string
  {
    // fmt.Sprintf with an argument but no verb appends it as %!(EXTRA ...).
    "tracker not available for lock: %!(EXTRA string=" + name + ")"
  }

  /**
   * The shared body of `ProcessCheck` and `ProcessDeliver`: on success the
   * tracker named by the lock is written back reserved for the lock, with
   * threshold `(N*2)/3 + 1` over the N validators' script addresses. On any
   * failure the store is left as it was.
   */
  method ReserveForLock(
    store: TrackerStore, payload: Option<Lock>, validators: seq<ScriptLookup>,
    isAvailable: Tracker -> bool, writeRefused: bool)
    returns (ok: bool, log: string)
    modifies store
    ensures ok <==> payload.Some? && payload.value.trackerName in old(store.trackers)
                    && isAvailable(old(store.trackers)[payload.value.trackerName]) && !writeRefused
    ensures ok ==> store.trackers == old(store.trackers)[payload.value.trackerName :=
                     Reserve(old(store.trackers)[payload.value.trackerName], payload.value,
                             Threshold(|validators|), ScriptAddresses(validators))]
    ensures !ok ==> store.trackers == old(store.trackers)
    ensures payload.None? ==> log == "wrong tx type"
    ensures payload.Some? && payload.value.trackerName !in old(store.trackers) ==>
              log == "tracker not found: " + payload.value.trackerName
    ensures (payload.Some? && payload.value.trackerName in old(store.trackers)
             && !isAvailable(old(store.trackers)[payload.value.trackerName])) ==>
              log == NotAvailableLog(payload.value.trackerName)
    ensures (payload.Some? && payload.value.trackerName in old(store.trackers)
             && isAvailable(old(store.trackers)[payload.value.trackerName]) && writeRefused) ==>
              log == "failed to update tracker"
  {
    if payload.None? {
      return false, "wrong tx type";
    }
    var lock := payload.value;
    if lock.trackerName !in store.trackers {
      return false, "tracker not found: " + lock.trackerName;
    }
    var tracker := store.trackers[lock.trackerName];
    if !isAvailable(tracker) {
      return false, NotAvailableLog(lock.trackerName);
    }
    var threshold := (|validators| * 2) / 3 + 1;
    var list := BuildParticipants(validators);

    tracker := tracker.(processType := ProcessTypeLock);
    tracker := tracker.(processOwner := lock.locker);
    tracker := tracker.(multisig := Some(MultiSig(lock.btcTxn, threshold, list)));
    tracker := tracker.(processBalance := AddInt64(tracker.currentBalance, lock.lockAmount));
    tracker := tracker.(processUnsignedTx := lock.btcTxn);

    var written := store.SetTracker(lock.trackerName, tracker, writeRefused);
    if !written {
      return false, "failed to update tracker";
    }
    ok, log := true, "";
  }

  /** `btcLockTx.ProcessCheck`: reserve the tracker; a success answers with the lock's tags. */
  method ProcessCheck(
    store: TrackerStore, payload: Option<Lock>, validators: seq<ScriptLookup>,
    isAvailable: Tracker -> bool, writeRefused: bool)
    returns (ok: bool, resp: Response)
    modifies store
    ensures ok <==> payload.Some? && payload.value.trackerName in old(store.trackers)
                    && isAvailable(old(store.trackers)[payload.value.trackerName]) && !writeRefused
    ensures ok ==> store.trackers == old(store.trackers)[payload.value.trackerName :=
                     Reserve(old(store.trackers)[payload.value.trackerName], payload.value,
                             Threshold(|validators|), ScriptAddresses(validators))]
    ensures !ok ==> store.trackers == old(store.trackers) && resp.tags == []
    ensures ok ==> resp == Response("", "", Tags(payload.value), [])
    ensures payload.None? ==> resp == LogResponse("wrong tx type")
    ensures payload.Some? && payload.value.trackerName !in old(store.trackers) ==>
              resp == LogResponse("tracker not found: " + payload.value.trackerName)
    ensures (payload.Some? && payload.value.trackerName in old(store.trackers)
             && !isAvailable(old(store.trackers)[payload.value.trackerName])) ==>
              resp == LogResponse(NotAvailableLog(payload.value.trackerName))
    ensures (payload.Some? && payload.value.trackerName in old(store.trackers)
             && isAvailable(old(store.trackers)[payload.value.trackerName]) && writeRefused) ==>
              resp == LogResponse("failed to update tracker")
  {
    var log;
    ok, log := ReserveForLock(store, payload, validators, isAvailable, writeRefused);
    resp := if ok then Response("", "", Tags(payload.value), []) else LogResponse(log);
  }

  /** `btcLockTx.ProcessDeliver`: as `ProcessCheck`, and a success also names the tracker in the response info. */
  method ProcessDeliver(
    store: TrackerStore, payload: Option<Lock>, validators: seq<ScriptLookup>,
    isAvailable: Tracker -> bool, writeRefused: bool)
    returns (ok: bool, resp: Response)
    modifies store
    ensures ok <==> payload.Some? && payload.value.trackerName in old(store.trackers)
                    && isAvailable(old(store.trackers)[payload.value.trackerName]) && !writeRefused
    ensures ok ==> store.trackers == old(store.trackers)[payload.value.trackerName :=
                     Reserve(old(store.trackers)[payload.value.trackerName], payload.value,
                             Threshold(|validators|), ScriptAddresses(validators))]
    ensures !ok ==> store.trackers == old(store.trackers) && resp.tags == []
    ensures ok ==> resp == Response("", "tracker: " + payload.value.trackerName, Tags(payload.value), [])
    ensures payload.None? ==> resp == LogResponse("wrong tx type")
    ensures payload.Some? && payload.value.trackerName !in old(store.trackers) ==>
              resp == LogResponse("tracker not found: " + payload.value.trackerName)
    ensures (payload.Some? && payload.value.trackerName in old(store.trackers)
             && !isAvailable(old(store.trackers)[payload.value.trackerName])) ==>
              resp == LogResponse(NotAvailableLog(payload.value.trackerName))
    ensures (payload.Some? && payload.value.trackerName in old(store.trackers)
             && isAvailable(old(store.trackers)[payload.value.trackerName]) && writeRefused) ==>
              resp == LogResponse("failed to update tracker")
  {
    var log;
    ok, log := ReserveForLock(store, payload, validators, isAvailable, writeRefused);
    resp := if ok then Response("", "tracker: " + payload.value.trackerName, Tags(payload.value), []) else LogResponse(log);
  }

  /** `btcLockTx.ProcessFee`: the shared fee handling with multiplier 1. */
  function ProcessFee(): (f: FeeHandling)
    ensures f == BasicFeeHandling(1)
  {
    BasicFeeHandling(1)
  }
}

=== FILE: eth_broadcast.dfy ===
/**
 * The Ethereum broadcast job (`event/eth_broadcast.go`). `DoMyJob` has a
 * value receiver: it counts a retry and moves the status on a copy of the
 * job, which is dropped when it returns.
 */
module EthBroadcast {
  import opened Jobs
  import opened Keys

  /** `JobETHBroadcast`: a plain value. */
  datatype JobETHBroadcast = JobETHBroadcast(
    trackerName: seq<byte>,
    jobId: string,
    retryCount: int,
    jobStatus: Status)

  /** How far a run of `DoMyJob` gets past the bookkeeping. */
  datatype Progress = TrackerMissing | DriverFailed | DecodeFailed | BroadcastFailed | Broadcasted

  /** The status after the retry step: Failed past the bound, otherwise New moves to InProgress. */
  function StatusAfterRetry(job: JobETHBroadcast, maxRetry: int): (s: Status)
    ensures job.retryCount + 1 > maxRetry ==> s == Failed
    ensures job.retryCount + 1 <= maxRetry && job.jobStatus == New ==> s == InProgress
    ensures job.retryCount + 1 <= maxRetry && job.jobStatus != New ==> s == job.jobStatus
  {
    if job.retryCount + 1 > maxRetry then Failed
    else if job.jobStatus == New then InProgress
    else job.jobStatus
  }

  /**
   * The copy as `DoMyJob` leaves it: one more retry, and the status of the
   * retry step unless the broadcast went through, which sets Completed.
   */
  function RunCopy(job: JobETHBroadcast, maxRetry: int, progress: Progress): (copy: JobETHBroadcast)
    ensures copy.retryCount == job.retryCount + 1
    ensures copy.trackerName == job.trackerName && copy.jobId == job.jobId
    ensures copy.jobStatus == Completed <==> progress == Broadcasted || StatusAfterRetry(job, maxRetry) == Completed
    ensures progress != Broadcasted ==> copy.jobStatus == StatusAfterRetry(job, maxRetry)
  {
    var status := if progress == Broadcasted then Completed else StatusAfterRetry(job, maxRetry);
    job.(retryCount := job.retryCount + 1, jobStatus := status)
  }

  /**
   * `DoMyJob`, returning the receiver's copy as it stands when the method
   * returns. `progress` is how far the tracker lookup, the chain driver, the
   * RLP decoding and the broadcast got. The retry bound is `jobs.Max_Retry_Count`.
   */
  method DoMyJob(job: JobETHBroadcast, progress: Progress) returns (copy: JobETHBroadcast)
    ensures copy == RunCopy(job, MaxRetryCount, progress)
  {
    copy := job;
    copy := copy.(retryCount := copy.retryCount + 1);
    if copy.retryCount > MaxRetryCount {
      copy := copy.(jobStatus := Failed);
    }
    if copy.jobStatus == New {
      copy := copy.(jobStatus := InProgress);
    }
    if progress == TrackerMissing || progress == DriverFailed || progress == DecodeFailed || progress == BroadcastFailed {
      return;
    }
    copy := copy.(jobStatus := Completed);
  }

  /** `GetJobID`: a fixed string, whatever the job. */
  function GetJobID(job: JobETHBroadcast): (id: string)
    ensures id == "We should make a Job ID"
  {
    "We should make a Job ID"
  }

  /** `IsDone`: the job is done exactly when its status is Completed. */
  function IsDone(job: JobETHBroadcast): (r: bool)
    ensures r <==> job.jobStatus == Completed
  {
    job.jobStatus == Completed
  }

  /**
   * A broadcast that goes through completes the copy even when the retry
   * bound was exceeded: Failed is overwritten, since the run does not stop
   * there.
   */
  lemma FailedIsOverwrittenByBroadcast(job: JobETHBroadcast)
    requires job.retryCount + 1 > MaxRetryCount
    ensures StatusAfterRetry(job, MaxRetryCount) == Failed
    ensures IsDone(RunCopy(job, MaxRetryCount, Broadcasted))
  {
  }
}

=== FILE: eth_finality.dfy ===
/**
 * The Ethereum finality-vote handler (action/eth/check_finalty.go). Each
 * validator reports that the tracker's Ethereum transaction is final; the
 * vote is added to the tracker, and once the tracker's own vote ledger says
 * it is finalized the lock is minted (or the redeem burned) and the tracker
 * is marked Released.
 *
 * The vote ledger (`Finalized`, `AddVote`, `GetVotes`) belongs to the
 * tracker package, which is not part of this model: its operations are the
 * fields of `VoteOps`, and every property here is stated relative to them.
 */
module EthFinality {
  import opened Wrappers
  import opened Keys
  import opened Balance
  import opened Action
  import opened ActionType

  /** A tracker is named by an Ethereum hash. */
  type TrackerName = seq<byte>

  /** The tracker states; `Unreleased(code)` stands for every state other than Released. */
  datatype TrackerState = Unreleased(code: int) | Released

  datatype ProcessType = ProcessTypeNone | ProcessTypeLock | ProcessTypeRedeem

  /** One entry of the tracker's vote ledger. */
  datatype Vote = Vote(voted: bool, approve: bool)

  /** `ethereum.Tracker`, restricted to the fields this handler reads or writes. */
  datatype Tracker = Tracker(
    name: TrackerName,
    state: TrackerState,
    processType: ProcessType,
    signedEthTx: seq<byte>,
    finalityVotes: seq<Vote>)

  /** The tracker's vote operations; `addVote` yields the new vote ledger or an error text. */
  datatype VoteOps = VoteOps(
    finalized: Tracker -> bool,
    addVote: (Tracker, Address, int64, bool) -> Result<seq<Vote>, string>,
    getVotes: Tracker -> (int, int))

  /** `Finalized` looks at the votes, not at the state field. */
  ghost predicate FinalizedIgnoresState(ops: VoteOps)
  {
    forall t: Tracker, s: TrackerState {:trigger ops.finalized(t.(state := s))} ::
      ops.finalized(t.(state := s)) == ops.finalized(t)
  }

  /** The `ReportFinality` message. */
  datatype ReportFinality = ReportFinality(
    trackerName: TrackerName,
    locker: Address,
    validatorAddress: Address,
    voteIndex: int64,
    refund: bool)

  /** `ReportFinality.Signers`: only the reporting validator signs. */
  function Signers(m: ReportFinality): (s: seq<Address>)
    ensures |s| == 1 && s[0] == m.validatorAddress
  {
    [m.validatorAddress]
  }

  /** `common.Hash.Hex`: "0x" and the lower-case base16 digits. */
  function NameHex(name: TrackerName): (s: string)
    ensures |s| == 2 + 2 * |name|
    ensures s[..2] == "0x" && s[2..] == Hex(name, false)
  {
    "0x" + Hex(name, false)
  }

  /** Distinct tracker names are tagged with distinct hex strings. */
  lemma NameHexInjective(a: TrackerName, b: TrackerName)
    requires NameHex(a) == NameHex(b)
    ensures a == b
  {
    assert Hex(a, false) == NameHex(a)[2..];
    HexInjective(a, b, false);
  }

  /** `ReportFinality.Tags`: type, owner (the locker), tracker name and validator. */
  function Tags(m: ReportFinality): (tags: seq<KVPair>)
    ensures |tags| == 4
    ensures tags[0] == KVPair("tx.type", Text(TypeString(ETH_REPORT_FINALITY_MINT)))
    ensures tags[1] == KVPair("tx.owner", Raw(Bytes(m.locker)))
    ensures tags[2] == KVPair("tx.tracker_name", Text(NameHex(m.trackerName)))
    ensures tags[3] == KVPair("tx.validator", Raw(Bytes(m.validatorAddress)))
  {
    [ KVPair("tx.type", Text(TypeString(ETH_REPORT_FINALITY_MINT))),
      KVPair("tx.owner", Raw(Bytes(m.locker))),
      KVPair("tx.tracker_name", Text(NameHex(m.trackerName))),
      KVPair("tx.validator", Raw(Bytes(m.validatorAddress))) ]
  }

  /**
   * `reportFinalityMintTx.Validate`: the payload must decode, the validator's
   * signature must verify, and a negative vote index is missing data.
   */
  function Validate(payload: Option<ReportFinality>, signaturesOk: bool): (r: Outcome<Error>)
    ensures payload.None? ==> r == Fail(WrongTxType)
    ensures payload.Some? && !signaturesOk ==> r == Fail(InvalidSignature)
    ensures payload.Some? && signaturesOk && payload.value.voteIndex < 0 ==> r == Fail(MissingData)
    ensures r.Pass? <==> payload.Some? && signaturesOk && payload.value.voteIndex >= 0
  {
    if payload.None? then Fail(WrongTxType)
    else if !signaturesOk then Fail(InvalidSignature)
    else if payload.value.voteIndex < 0 then Fail(MissingData)
    else Pass
  }

  /** `reportFinalityMintTx.ProcessFee`: succeeds and charges nothing. */
  function ProcessFee(): (f: FeeHandling)
    ensures f == NoFee
  {
    NoFee
  }

  /** `errors.Wrap(err, msg).Error()`. */
  function Wrap(msg: string, err: string): string
  {
    msg + ": " + err
  }

  /**
   * The ether coin a mint credits: the registered "ETH" currency and the
   * amount `ParseLock` reads from the tracker's signed transaction, or the
   * error that stops the mint before any credit.
   */
  function MintCoin(currencies: CurrencyList, parseLock: seq<byte> -> Result<int, string>, t: Tracker): (r: Result<Coin, string>)
    ensures "ETH" !in currencies.byName ==> r == Failure("ETH currency not allowed")
    ensures "ETH" in currencies.byName && parseLock(t.signedEthTx).Failure? ==> r == Failure(parseLock(t.signedEthTx).error)
    ensures r.Success? <==> "ETH" in currencies.byName && parseLock(t.signedEthTx).Success?
    ensures r.Success? ==> r.value == Coin(currencies.byName["ETH"], parseLock(t.signedEthTx).value)
  {
    match currencies.GetCurrencyByName("ETH")
    case None => Failure("ETH currency not allowed")
    case Some(curr) =>
      match parseLock(t.signedEthTx)
      case Failure(e) => Failure(e)
      case Success(amount) => Success(NewCoinFromAmount(curr, amount))
  }

  /** The ether tracker store (`ctx.ETHTrackers`): every tracker is kept under its own name. */
  class TrackerStore {
    var trackers: map<TrackerName, Tracker>

    ghost predicate Valid()
      reads this
    {
      forall n :: n in trackers ==> trackers[n].name == n
    }

    constructor (initial: map<TrackerName, Tracker>)
      requires forall n :: n in initial ==> initial[n].name == n
      ensures Valid() && trackers == initial
    {
      trackers := initial;
    }

    /** `Set(tracker)`: store the tracker under its name, unless the store answers with an error. */
    method Set(t: Tracker, err: Option<string>) returns (r: Option<string>)
      requires Valid()
      modifies this
      ensures Valid() && r == err
      ensures trackers == if err.None? then old(trackers)[t.name := t] else old(trackers)
    {
      if err.None? {
        trackers := trackers[t.name := t];
      }
      r := err;
    }
  }

  /**
   * `mintTokens`: credit the lock amount in ETH to the locker, then mark the
   * tracker Released and save it. A missing currency, a parse error or a
   * refused credit return before anything changes; the credit is made before
   * the Released write and stays even if that write fails.
   */
  method MintTokens(
    store: TrackerStore, ledger: BalanceLedger, currencies: CurrencyList,
    parseLock: seq<byte> -> Result<int, string>, t: Tracker, report: ReportFinality,
    creditRefused: bool, setErr: Option<string>)
    returns (err: Option<string>)
    requires store.Valid()
    modifies store, ledger
    ensures store.Valid()
    ensures MintCoin(currencies, parseLock, t).Failure? ==>
              err == Some(MintCoin(currencies, parseLock, t).error)
              && store.trackers == old(store.trackers) && ledger.holdings == old(ledger.holdings)
    ensures MintCoin(currencies, parseLock, t).Success? && creditRefused ==>
              err == Some("Unable to mint")
              && store.trackers == old(store.trackers) && ledger.holdings == old(ledger.holdings)
    ensures MintCoin(currencies, parseLock, t).Success? && !creditRefused ==>
              err == setErr
              && ledger.holdings == Credit(old(ledger.holdings), report.locker, MintCoin(currencies, parseLock, t).value)
              && store.trackers == if setErr.None? then old(store.trackers)[t.name := t.(state := Released)] else old(store.trackers)
  {
    var curr := currencies.GetCurrencyByName("ETH");
    if curr.None? {
      return Some("ETH currency not allowed");
    }
    var lockAmount := parseLock(t.signedEthTx);
    if lockAmount.Failure? {
      return Some(lockAmount.error);
    }
    var coin := NewCoinFromAmount(curr.value, lockAmount.value);
    var credited := ledger.AddToAddress(report.locker, coin, creditRefused);
    if !credited {
      return Some("Unable to mint");
    }
    var released := t.(state := Released);
    err := store.Set(released, setErr);
  }

  /**
   * `burnTokens`: no balance changes here; with the currency registered and
   * the redeem parsed, the tracker is marked Released and saved.
   */
  method BurnTokens(
    store: TrackerStore, currencies: CurrencyList,
    parseRedeem: seq<byte> -> Result<int, string>, t: Tracker, setErr: Option<string>)
    returns (err: Option<string>)
    requires store.Valid()
    modifies store
    ensures store.Valid()
    ensures "ETH" !in currencies.byName ==> err == Some("ETH currency not allowed") && store.trackers == old(store.trackers)
    ensures "ETH" in currencies.byName && parseRedeem(t.signedEthTx).Failure? ==>
              err == Some(parseRedeem(t.signedEthTx).error) && store.trackers == old(store.trackers)
    ensures "ETH" in currencies.byName && parseRedeem(t.signedEthTx).Success? ==>
              err == setErr
              && store.trackers == if setErr.None? then old(store.trackers)[t.name := t.(state := Released)] else old(store.trackers)
  {
    var curr := currencies.GetCurrencyByName("ETH");
    if curr.None? {
      return Some("ETH currency not allowed");
    }
    var burnAmount := parseRedeem(t.signedEthTx);
    if burnAmount.Failure? {
      return Some(burnAmount.error);
    }
    var released := t.(state := Released);
    err := store.Set(released, setErr);
  }

  /** A handler's answer, or the run-time panic the source runs into. */
  datatype Handled = Done(ok: bool, resp: Response) | Panicked(reason: string)

  /** The tracker as it stands after a successful `AddVote`. */
  function Voted(t: Tracker, votes: seq<Vote>): Tracker
  {
    t.(finalityVotes := votes)
  }

  /**
   * `runCheckFinality`, the body of both `ProcessCheck` and `ProcessDeliver`.
   * A failed tracker lookup leaves the source with a nil tracker, on which
   * `Finalized` panics.
   */
  method RunCheckFinality(
    store: TrackerStore, ledger: BalanceLedger, currencies: CurrencyList, ops: VoteOps,
    parseLock: seq<byte> -> Result<int, string>, parseRedeem: seq<byte> -> Result<int, string>,
    payload: Option<ReportFinality>, creditRefused: bool, setErr: Option<string>)
    returns (r: Handled)
    requires store.Valid()
    modifies store, ledger
    ensures store.Valid()
    // Nothing decoded: nothing happens.
    ensures payload.None? ==>
              r == Done(false, LogResponse("wrong tx type"))
              && store.trackers == old(store.trackers) && ledger.holdings == old(ledger.holdings)
    ensures payload.Some? && payload.value.trackerName !in old(store.trackers) ==>
              r.Panicked? && store.trackers == old(store.trackers) && ledger.holdings == old(ledger.holdings)
    // An already finalized tracker: success, no vote, no write, no balance change.
    ensures payload.Some? && payload.value.trackerName in old(store.trackers)
            && ops.finalized(old(store.trackers)[payload.value.trackerName]) ==>
              r == Done(true, LogResponse("tracker already finalized"))
              && store.trackers == old(store.trackers) && ledger.holdings == old(ledger.holdings)
    // A refused vote: failure, nothing saved.
    ensures payload.Some? && payload.value.trackerName in old(store.trackers)
            && !ops.finalized(old(store.trackers)[payload.value.trackerName])
            && ops.addVote(old(store.trackers)[payload.value.trackerName], payload.value.validatorAddress, payload.value.voteIndex, true).Failure? ==>
              r == Done(false, LogResponse(Wrap("failed to add vote",
                     ops.addVote(old(store.trackers)[payload.value.trackerName], payload.value.validatorAddress, payload.value.voteIndex, true).error)))
              && store.trackers == old(store.trackers) && ledger.holdings == old(ledger.holdings)
    // The balance ledger changes only by one mint credit to the locker.
    ensures ledger.holdings == old(ledger.holdings)
            || (payload.Some? && payload.value.trackerName in old(store.trackers)
                && MintCoin(currencies, parseLock, old(store.trackers)[payload.value.trackerName]).Success?
                && ledger.holdings == Credit(old(ledger.holdings), payload.value.locker,
                     MintCoin(currencies, parseLock, old(store.trackers)[payload.value.trackerName]).value))
    // The store changes at most at the reported tracker's name.
    ensures forall n :: n in old(store.trackers) && (payload.None? || n != payload.value.trackerName) ==>
              n in store.trackers && store.trackers[n] == old(store.trackers)[n]
    ensures store.trackers.Keys == old(store.trackers.Keys)
    ensures VoteOutcome(old(store.trackers), old(ledger.holdings), store.trackers, ledger.holdings,
                        currencies, ops, parseLock, parseRedeem, payload, creditRefused, setErr, r)
  {
    if payload.None? {
      return Done(false, LogResponse("wrong tx type"));
    }
    var f := payload.value;
    if f.trackerName !in store.trackers {
      return Panicked("nil pointer dereference: tracker not found");
    }
    var tracker := store.trackers[f.trackerName];
    if ops.finalized(tracker) {
      return Done(true, LogResponse("tracker already finalized"));
    }
    var added := ops.addVote(tracker, f.validatorAddress, f.voteIndex, true);
    if added.Failure? {
      return Done(false, LogResponse(Wrap("failed to add vote", added.error)));
    }
    tracker := Voted(tracker, added.value);

    if ops.finalized(tracker) {
      if tracker.processType == ProcessTypeLock {
        var err := MintTokens(store, ledger, currencies, parseLock, tracker, f, creditRefused, setErr);
        if err.Some? {
          return Done(false, LogResponse(Wrap("unable to mint tokens", err.value)));
        }
      } else if tracker.processType == ProcessTypeRedeem {
        var err := BurnTokens(store, currencies, parseRedeem, tracker, setErr);
        if err.Some? {
          return Done(false, LogResponse(Wrap("unable to burn tokens", err.value)));
        }
      }
      return Done(true, LogResponse("minting successful"));
    }

    var err := store.Set(tracker, setErr);
    if err.Some? {
      return Done(false, LogResponse(Wrap("unable to save the tracker", err.value)));
    }
    var (yes, no) := ops.getVotes(tracker);
    r := Done(true, LogResponse("vote success, not ready to mint: " + DecimalString(yes) + DecimalString(no)));
  }

  /**
   * What happens once the vote is added (`t` is the tracker before the vote,
   * `v` the tracker after it): a tracker that is still not finalized is saved
   * and the handler reports the yes/no counts; a finalized Lock tracker is
   * minted and Released, a finalized Redeem tracker is Released, and a
   * finalized tracker of neither kind answers success without being saved.
   */
  ghost predicate VoteOutcome(
    trackers0: map<TrackerName, Tracker>, holdings0: map<Holding, int>,
    trackers1: map<TrackerName, Tracker>, holdings1: map<Holding, int>,
    currencies: CurrencyList, ops: VoteOps,
    parseLock: seq<byte> -> Result<int, string>, parseRedeem: seq<byte> -> Result<int, string>,
    payload: Option<ReportFinality>, creditRefused: bool, setErr: Option<string>, r: Handled)
  {
    payload.Some? && payload.value.trackerName in trackers0 && !ops.finalized(trackers0[payload.value.trackerName])
    && ops.addVote(trackers0[payload.value.trackerName], payload.value.validatorAddress, payload.value.voteIndex, true).Success?
    ==>
    var f := payload.value;
    var t := trackers0[f.trackerName];
    var v := Voted(t, ops.addVote(t, f.validatorAddress, f.voteIndex, true).value);
    var yes := ops.getVotes(v).0;
    var no := ops.getVotes(v).1;
    var released := trackers0[f.trackerName := v.(state := Released)];
    if !ops.finalized(v) then
      holdings1 == holdings0
      && (setErr.None? ==> (
            trackers1 == trackers0[f.trackerName := v]
            && r == Done(true, LogResponse("vote success, not ready to mint: " + DecimalString(yes) + DecimalString(no)))))
      && (setErr.Some? ==> (
            trackers1 == trackers0
            && r == Done(false, LogResponse(Wrap("unable to save the tracker", setErr.value)))))
    else if v.processType == ProcessTypeLock then
      var coin := MintCoin(currencies, parseLock, v);
      (coin.Failure? ==> (
         trackers1 == trackers0 && holdings1 == holdings0
         && r == Done(false, LogResponse(Wrap("unable to mint tokens", coin.error)))))
      && (coin.Success? && creditRefused ==> (
         trackers1 == trackers0 && holdings1 == holdings0
         && r == Done(false, LogResponse(Wrap("unable to mint tokens", "Unable to mint")))))
      && (coin.Success? && !creditRefused ==> (
         holdings1 == Credit(holdings0, f.locker, coin.value)
         && (setErr.None? ==> trackers1 == released && r == Done(true, LogResponse("minting successful")))
         && (setErr.Some? ==> trackers1 == trackers0 && r == Done(false, LogResponse(Wrap("unable to mint tokens", setErr.value))))))
    else if v.processType == ProcessTypeRedeem then
      holdings1 == holdings0
      && ("ETH" !in currencies.byName ==> (
            trackers1 == trackers0
            && r == Done(false, LogResponse(Wrap("unable to burn tokens", "ETH currency not allowed")))))
      && ("ETH" in currencies.byName && parseRedeem(v.signedEthTx).Failure? ==> (
            trackers1 == trackers0
            && r == Done(false, LogResponse(Wrap("unable to burn tokens", parseRedeem(v.signedEthTx).error)))))
      && ("ETH" in currencies.byName && parseRedeem(v.signedEthTx).Success? ==> (
            (setErr.None? ==> trackers1 == released && r == Done(true, LogResponse("minting successful")))
            && (setErr.Some? ==> trackers1 == trackers0 && r == Done(false, LogResponse(Wrap("unable to burn tokens", setErr.value))))))
    else
      trackers1 == trackers0 && holdings1 == holdings0 && r == Done(true, LogResponse("minting successful"))
  }

  /**
   * Exactly-once mint: once a report has minted and released a tracker, the
   * same report delivered again (the Check-then-Deliver pair, or a replay)
   * finds the tracker finalized and changes neither the store nor any
   * balance, provided `Finalized` depends on the votes only.
   */
  method DeliverTwice(
    store: TrackerStore, ledger: BalanceLedger, currencies: CurrencyList, ops: VoteOps,
    parseLock: seq<byte> -> Result<int, string>, parseRedeem: seq<byte> -> Result<int, string>,
    report: ReportFinality, setErr2: Option<string>)
    returns (first: Handled, second: Handled)
    requires store.Valid() && FinalizedIgnoresState(ops)
    requires report.trackerName in store.trackers
    requires var t := store.trackers[report.trackerName];
             !ops.finalized(t) && t.processType == ProcessTypeLock
             && ops.addVote(t, report.validatorAddress, report.voteIndex, true).Success?
             && ops.finalized(Voted(t, ops.addVote(t, report.validatorAddress, report.voteIndex, true).value))
             && MintCoin(currencies, parseLock, t).Success?
    modifies store, ledger
    ensures first == Done(true, LogResponse("minting successful"))
    ensures second == Done(true, LogResponse("tracker already finalized"))
    ensures report.trackerName in store.trackers && store.trackers[report.trackerName].state == Released
    ensures ledger.holdings == Credit(old(ledger.holdings), report.locker,
              MintCoin(currencies, parseLock, old(store.trackers)[report.trackerName]).value)
  {
    ghost var t := store.trackers[report.trackerName];
    ghost var v := Voted(t, ops.addVote(t, report.validatorAddress, report.voteIndex, true).value);
    assert MintCoin(currencies, parseLock, v) == MintCoin(currencies, parseLock, t);
    first := RunCheckFinality(store, ledger, currencies, ops, parseLock, parseRedeem, Some(report), false, None);
    assert store.trackers[report.trackerName] == v.(state := Released);
    assert ops.finalized(v.(state := Released));
    second := RunCheckFinality(store, ledger, currencies, ops, parseLock, parseRedeem, Some(report), false, setErr2);
  }

  /**
   * The other side of `DeliverTwice`: `mintTokens` credits the locker before
   * it writes the Released tracker and keeps the credit when that write
   * fails, and the voted tracker is not saved either. So when the first
   * delivery's write is refused, the same report delivered again votes,
   * finalizes and mints once more: the locker is credited twice.
   */
  method RemintAfterRefusedRelease(
    store: TrackerStore, ledger: BalanceLedger, currencies: CurrencyList, ops: VoteOps,
    parseLock: seq<byte> -> Result<int, string>, parseRedeem: seq<byte> -> Result<int, string>,
    report: ReportFinality, setErr1: Option<string>)
    returns (first: Handled, second: Handled)
    requires store.Valid() && setErr1.Some?
    requires report.trackerName in store.trackers
    requires var t := store.trackers[report.trackerName];
             !ops.finalized(t) && t.processType == ProcessTypeLock
             && ops.addVote(t, report.validatorAddress, report.voteIndex, true).Success?
             && ops.finalized(Voted(t, ops.addVote(t, report.validatorAddress, report.voteIndex, true).value))
             && MintCoin(currencies, parseLock, t).Success?
    modifies store, ledger
    ensures first == Done(false, LogResponse(Wrap("unable to mint tokens", setErr1.value)))
    ensures second == Done(true, LogResponse("minting successful"))
    ensures report.trackerName in store.trackers && store.trackers[report.trackerName].state == Released
    ensures var coin := MintCoin(currencies, parseLock, old(store.trackers)[report.trackerName]).value;
            ledger.holdings == Credit(Credit(old(ledger.holdings), report.locker, coin), report.locker, coin)
            && HeldBy(ledger.holdings, report.locker, coin.currency.name)
               == HeldBy(old(ledger.holdings), report.locker, coin.currency.name) + 2 * coin.amount
  {
    ghost var t := store.trackers[report.trackerName];
    ghost var v := Voted(t, ops.addVote(t, report.validatorAddress, report.voteIndex, true).value);
    assert MintCoin(currencies, parseLock, v) == MintCoin(currencies, parseLock, t);
    first := RunCheckFinality(store, ledger, currencies, ops, parseLock, parseRedeem, Some(report), false, setErr1);
    assert store.trackers == old(store.trackers);
    second := RunCheckFinality(store, ledger, currencies, ops, parseLock, parseRedeem, Some(report), false, None);
  }

  /**
   * The "not ready to mint" log joins the yes and no counts with no
   * separator, so different counts can give the same log: 1 yes and 23 no
   * read exactly like 12 yes and 3 no.
   */
  lemma VoteCountLogAmbiguous()
    ensures "vote success, not ready to mint: " + DecimalString(1) + DecimalString(23)
            == "vote success, not ready to mint: " + DecimalString(12) + DecimalString(3)
  {
  }
}

=== FILE: fees.dfy ===
/**
 * Fee bookkeeping (data/fees): a validator's reward, split into a total and
 * the matured part that may be paid out, and the fee option whose minimum
 * fee is computed once and then served from a cache.
 */
module Fees {
  import opened Wrappers
  import opened Balance
  import opened Action

  datatype FeeError = NotEnoughMaturedRewards

  /** `fees.Reward`; the pointer-receiver methods overwrite both fields in place. */
  class Reward {
    var total: int
    var matured: int

    /** `NewReward(amt)`: everything is still immature. */
    constructor NewReward(amt: int)
      ensures total == amt && matured == 0
    {
      total := amt;
      matured := 0;
    }

    /** `Add`: a new reward raises the total only. */
    method Add(amt: int) returns (r: Reward)
      modifies this
      ensures r == this
      ensures total == old(total) + amt && matured == old(matured)
    {
      total := total + amt;
      r := this;
    }

    /**
     * `Minus`: paying out `amt` is refused when it exceeds the matured part;
     * otherwise it lowers both halves, so the immature part `total - matured`
     * is kept and the matured part never becomes negative.
     */
    method Minus(amt: int) returns (r: Reward, err: Option<FeeError>)
      modifies this
      ensures r == this
      ensures err == (if amt > old(matured) then Some(NotEnoughMaturedRewards) else None)
      ensures err.Some? ==> total == old(total) && matured == old(matured)
      ensures err.None? ==> total == old(total) - amt && matured == old(matured) - amt
      ensures total - matured == old(total) - old(matured)
      ensures err.None? ==> matured >= 0
    {
      var m := matured - amt;
      if m < 0 {
        return this, Some(NotEnoughMaturedRewards);
      }
      total := total - amt;
      matured := m;
      r, err := this, None;
    }

    /** `Maturing`: part of the reward matures; the total stays and no error is returned. */
    method Maturing(amt: int) returns (r: Reward, err: Option<FeeError>)
      modifies this
      ensures r == this && err.None?
      ensures matured == old(matured) + amt && total == old(total)
    {
      matured := matured + amt;
      r, err := this, None;
    }
  }

  /**
   * `big.Int.Exp(x, y, nil)`: the power x^y, and 1 when y <= 0.
   */
  function ExpNoModulus(x: int, y: int): (r: int)
    ensures y <= 0 ==> r == 1
    ensures x > 0 ==> r > 0
    decreases if y <= 0 then 0 else y
  {
    if y <= 0 then 1 else x * ExpNoModulus(x, y - 1)
  }

  /** Powers of ten split over a sum of non-negative exponents. */
  lemma {:induction false} ExpAdd(a: nat, b: nat)
    ensures ExpNoModulus(10, a + b) == ExpNoModulus(10, a) * ExpNoModulus(10, b)
  {
    if a > 0 {
      ExpAdd(a - 1, b);
      assert ExpNoModulus(10, a + b) == 10 * ExpNoModulus(10, a - 1 + b);
    }
  }

  /**
   * The minimum fee is the fraction 10^-minFeeDecimal of one whole coin:
   * scaled back by 10^minFeeDecimal it is exactly one unit of the currency,
   * which has 10^decimal base units.
   */
  lemma MinFeeIsFractionOfUnit(decimal: int, minFeeDecimal: int)
    requires 0 <= minFeeDecimal <= decimal
    ensures ExpNoModulus(10, decimal - minFeeDecimal) * ExpNoModulus(10, minFeeDecimal) == ExpNoModulus(10, decimal)
  {
    ExpAdd(decimal - minFeeDecimal, minFeeDecimal);
  }

  /** `fees.FeeOption`, with its lazily filled `minimalFee` cache. */
  class FeeOption {
    var feeCurrency: Currency
    var minFeeDecimal: int64
    var minimalFee: Option<Coin>

    constructor (feeCurrency: Currency, minFeeDecimal: int64)
      ensures this.feeCurrency == feeCurrency && this.minFeeDecimal == minFeeDecimal
      ensures minimalFee.None?
    {
      this.feeCurrency := feeCurrency;
      this.minFeeDecimal := minFeeDecimal;
      minimalFee := None;
    }

    /** The coin `MinFee` computes from the current fields. */
    function ComputedMinFee(): (c: Coin)
      reads this
      ensures c.currency == feeCurrency
      ensures c.amount == ExpNoModulus(10, feeCurrency.decimal - minFeeDecimal as int)
      ensures feeCurrency.decimal <= minFeeDecimal as int ==> c.amount == 1
    {
      NewCoinFromAmount(feeCurrency, ExpNoModulus(10, feeCurrency.decimal - minFeeDecimal as int))
    }

    /**
     * `MinFee`: the first call computes 10^(decimal - minFeeDecimal) in the fee
     * currency and caches it; every later call returns the cached coin, even
     * if the fields have changed since.
     */
    method MinFee() returns (c: Coin)
      modifies this`minimalFee
      ensures old(minimalFee).Some? ==> c == old(minimalFee).value && minimalFee == old(minimalFee)
      ensures old(minimalFee).None? ==> c == ComputedMinFee() && minimalFee == Some(c)
    {
      if minimalFee.None? {
        var amount := ExpNoModulus(10, feeCurrency.decimal - minFeeDecimal as int);
        var coin := NewCoinFromAmount(feeCurrency, amount);
        minimalFee := Some(coin);
      }
      c := minimalFee.value;
    }
  }

  /** Two consecutive `MinFee` calls return the same coin, whatever happens to the fields in between. */
  method MinFeeIsIdempotent(fo: FeeOption, newDecimal: int64) returns (first: Coin, second: Coin)
    modifies fo
    ensures first == second
    ensures old(fo.minimalFee).None? ==> first.amount == ExpNoModulus(10, old(fo.feeCurrency.decimal) - old(fo.minFeeDecimal) as int)
  {
    first := fo.MinFee();
    fo.minFeeDecimal := newDecimal;
    second := fo.MinFee();
  }
}

=== FILE: governance.dfy ===
/**
 * Governance proposal handlers (action/governance): cancelling a proposal
 * that is still being funded, and withdrawing a contribution from a
 * proposal that missed its funding goal.
 */
module Governance {
  import opened Wrappers
  import opened Keys
  import opened Balance
  import opened Action
  import opened ActionType

  type ProposalID = string

  datatype ProposalStatus = Funding | Voting | Completed | Withdrawing | WithdrawCompleted

  datatype ProposalOutcome = InProgress | InsufficientFunds | InsufficientVotes | CompletedNo | CompletedYes | Cancelled

  /** `governance.Proposal`, restricted to the fields these handlers read or write. */
  datatype Proposal = Proposal(
    proposalId: ProposalID,
    proposer: Address,
    status: ProposalStatus,
    outcome: ProposalOutcome,
    description: string,
    fundingGoal: int,
    fundingDeadline: int64)

  /** The `CancelProposal` message. */
  datatype CancelProposal = CancelProposal(proposalId: ProposalID, proposer: Address, reason: string)

  /** The `WithdrawProposal` message. */
  datatype WithdrawProposal = WithdrawProposal(
    proposalId: ProposalID,
    contributor: Address,
    withdrawValue: Amount,
    beneficiary: Address)

  // ----- Cancel -----

  /** `CancelProposal.Signers`: only the proposer signs. */
  function CancelSigners(cc: CancelProposal): (s: seq<Address>)
    ensures |s| == 1 && s[0] == cc.proposer
  {
    [Bytes(cc.proposer)]
  }

  /** `CancelProposal.Tags`: type, proposal id, proposer and reason, in that order. */
  function CancelTags(cc: CancelProposal): (tags: seq<KVPair>)
    ensures |tags| == 4
    ensures tags[0] == KVPair("tx.type", Text(TypeString(PROPOSAL_CANCEL)))
    ensures tags[1] == KVPair("tx.proposalID", Text(cc.proposalId))
    ensures tags[2] == KVPair("tx.proposer", Raw(Bytes(cc.proposer)))
    ensures tags[3] == KVPair("tx.reason", Text(cc.reason))
  {
    [ KVPair("tx.type", Text(TypeString(PROPOSAL_CANCEL))),
      KVPair("tx.proposalID", Text(cc.proposalId)),
      KVPair("tx.proposer", Raw(Bytes(cc.proposer))),
      KVPair("tx.reason", Text(cc.reason)) ]
  }

  /**
   * `CancelProposalTx.Validate`. `validId` and `validAddress` are the
   * `ProposalID.Err` and `Address.Err` checks of packages outside this model.
   */
  function ValidateCancel(
    payload: Option<CancelProposal>, signaturesOk: bool, feeOk: bool,
    validId: ProposalID -> bool, validAddress: Address -> bool): (r: Outcome<Error>)
    ensures payload.None? ==> r == Fail(WrongTxType)
    ensures payload.Some? && signaturesOk && feeOk && !validId(payload.value.proposalId) ==> r == Fail(InvalidProposalId)
    ensures payload.Some? && signaturesOk && feeOk && validId(payload.value.proposalId) && !validAddress(payload.value.proposer) ==>
              r == Fail(InvalidAddress("invalid proposer address"))
    ensures r.Pass? <==> payload.Some? && signaturesOk && feeOk
                         && validId(payload.value.proposalId) && validAddress(payload.value.proposer)
  {
    if payload.None? then Fail(WrongTxType)
    else if !signaturesOk then Fail(InvalidSignature)
    else if !feeOk then Fail(InsufficientFee)
    else if !validId(payload.value.proposalId) then Fail(InvalidProposalId)
    else if !validAddress(payload.value.proposer) then Fail(InvalidAddress("invalid proposer address"))
    else Pass
  }

  /** `CancelProposalTx.ProcessFee`: the shared fee handling with multiplier 2. */
  function CancelProcessFee(): (f: FeeHandling)
    ensures f == BasicFeeHandling(2)
  {
    BasicFeeHandling(2)
  }

  /**
   * The description of a cancelled proposal: " - Canceled", then, for a
   * non-empty reason, "for reason: " and the reason, with no separator.
   */
  function CancelledDescription(description: string, reason: string): (d: string)
    ensures |d| > |description| && d[..|description|] == description
    ensures reason == [] ==> d == description + " - Canceled"
    ensures reason != [] ==> d == description + " - Canceled" + "for reason: " + reason
  {
    var d := description + " - Canceled";
    if reason != "" then d + "for reason: " + reason else d
  }

  /** The proposal as the FAILED store receives it after a cancel. */
  function CancelledProposal(p: Proposal, reason: string): (q: Proposal)
    ensures q.status == Completed && q.outcome == Cancelled
    ensures q.description == CancelledDescription(p.description, reason)
    ensures q.proposalId == p.proposalId && q.proposer == p.proposer
    ensures q.fundingGoal == p.fundingGoal && q.fundingDeadline == p.fundingDeadline
  {
    p.(status := Completed, outcome := Cancelled, description := CancelledDescription(p.description, reason))
  }

  /** The log of a cancel that failed after the proposal was found. */
  function CancelFailure(id: ProposalID, what: string): (r: Response)
    ensures r.events == [] && r.log == "cancel proposal failed, id= " + id + ", " + what
  {
    LogResponse("cancel proposal failed, id= " + id + ", " + what)
  }

  /** Whether a proposal may be cancelled by `cc` at `height`. */
  predicate MayCancel(p: Proposal, cc: CancelProposal, height: int)
  {
    p.status == Funding && height <= p.fundingDeadline as int && Equal(p.proposer, cc.proposer)
  }

  /** The proposal store, split by prefix into the ACTIVE and the FAILED proposals. */
  class ProposalStore {
    var active: map<ProposalID, Proposal>
    var failed: map<ProposalID, Proposal>

    /** Every proposal is stored under its own id. */
    predicate Valid()
      reads this
    {
      (forall id :: id in active ==> active[id].proposalId == id)
      && (forall id :: id in failed ==> failed[id].proposalId == id)
    }

    constructor (active: map<ProposalID, Proposal>, failed: map<ProposalID, Proposal>)
      requires forall id :: id in active ==> active[id].proposalId == id
      requires forall id :: id in failed ==> failed[id].proposalId == id
      ensures this.active == active && this.failed == failed
      ensures Valid()
    {
      this.active := active;
      this.failed := failed;
    }

    /** `WithPrefixType(FAILED).Set(p)`, unless the store refuses the write. */
    method SetFailed(p: Proposal, refused: bool) returns (ok: bool)
      modifies this
      ensures ok == !refused && active == old(active)
      ensures failed == if ok then old(failed)[p.proposalId := p] else old(failed)
    {
      ok := !refused;
      if ok {
        failed := failed[p.proposalId := p];
      }
    }

    /** `WithPrefixType(ACTIVE).Delete(id)`: true only when an entry was there and the store did not fail. */
    method DeleteActive(id: ProposalID, fails: bool) returns (ok: bool)
      modifies this
      ensures ok == (id in old(active) && !fails) && failed == old(failed)
      ensures active == if ok then old(active) - {id} else old(active)
    {
      ok := id in active && !fails;
      if ok {
        active := active - {id};
      }
    }
  }

  /**
   * `runCancel`, the body of both `ProcessCheck` and `ProcessDeliver`: an
   * ACTIVE proposal still in Funding, before its funding deadline and asked
   * for by its own proposer, is marked Completed/Cancelled, written to the
   * FAILED store and deleted from ACTIVE.
   */
  method RunCancel(
    store: ProposalStore, payload: Option<CancelProposal>, height: int,
    setRefused: bool, deleteFails: bool)
    returns (ok: bool, resp: Response)
    requires store.Valid()
    modifies store
    ensures store.Valid()
    // Nothing decoded, or no such ACTIVE proposal: nothing changes.
    ensures payload.None? ==>
              !ok && resp == LogResponse("calcel proposal failed, deserialization err")
              && store.active == old(store.active) && store.failed == old(store.failed)
    ensures payload.Some? && payload.value.proposalId !in old(store.active) ==>
              !ok && resp == LogResponse("calcel proposal failed, id= " + payload.value.proposalId + ", proposal not found in ACTIVE store")
              && store.active == old(store.active) && store.failed == old(store.failed)
    // Each guard, in the order the source checks them: nothing changes.
    ensures (payload.Some? && payload.value.proposalId in old(store.active)
             && !MayCancel(old(store.active)[payload.value.proposalId], payload.value, height)) ==>
              !ok && store.active == old(store.active) && store.failed == old(store.failed)
    ensures (payload.Some? && payload.value.proposalId in old(store.active)
             && old(store.active)[payload.value.proposalId].status != Funding) ==>
              resp == CancelFailure(payload.value.proposalId, "proposal not in FUNDING status")
    ensures (payload.Some? && payload.value.proposalId in old(store.active)
             && old(store.active)[payload.value.proposalId].status == Funding
             && height > old(store.active)[payload.value.proposalId].fundingDeadline as int) ==>
              resp == CancelFailure(payload.value.proposalId, "funding height passed")
    ensures (payload.Some? && payload.value.proposalId in old(store.active)
             && old(store.active)[payload.value.proposalId].status == Funding
             && height <= old(store.active)[payload.value.proposalId].fundingDeadline as int
             && !Equal(old(store.active)[payload.value.proposalId].proposer, payload.value.proposer)) ==>
              resp == CancelFailure(payload.value.proposalId, "proposer does not match")
    ensures ok <==> payload.Some? && payload.value.proposalId in old(store.active)
                    && MayCancel(old(store.active)[payload.value.proposalId], payload.value, height)
                    && !setRefused && !deleteFails
    ensures ok ==> var id := payload.value.proposalId;
                   store.failed == old(store.failed)[id := CancelledProposal(old(store.active)[id], payload.value.reason)]
                   && store.active == old(store.active) - {id}
                   && resp == EventResponse(CancelTags(payload.value), "cancel_proposal_success")
    // A refused write to FAILED: nothing changes.
    ensures (payload.Some? && payload.value.proposalId in old(store.active)
             && MayCancel(old(store.active)[payload.value.proposalId], payload.value, height)
             && setRefused) ==>
              store.failed == old(store.failed) && store.active == old(store.active)
              && resp == CancelFailure(payload.value.proposalId, "failed to add proposal to FAILED store")
    // A write to FAILED followed by a failed delete leaves the proposal in both stores.
    ensures (payload.Some? && payload.value.proposalId in old(store.active)
             && MayCancel(old(store.active)[payload.value.proposalId], payload.value, height)
             && !setRefused && deleteFails) ==>
              var id := payload.value.proposalId;
              store.failed == old(store.failed)[id := CancelledProposal(old(store.active)[id], payload.value.reason)]
              && store.active == old(store.active) && !ok
              && resp == CancelFailure(id, "failed to delete proposal from ACTIVE store")
  {
    if payload.None? {
      return false, LogResponse("calcel proposal failed, deserialization err");
    }
    var cc := payload.value;
    if cc.proposalId !in store.active {
      return false, LogResponse("calcel proposal failed, id= " + cc.proposalId + ", proposal not found in ACTIVE store");
    }
    var proposal := store.active[cc.proposalId];
    if proposal.status != Funding {
      return false, CancelFailure(cc.proposalId, "proposal not in FUNDING status");
    }
    if height > proposal.fundingDeadline as int {
      return false, CancelFailure(cc.proposalId, "funding height passed");
    }
    if !Equal(proposal.proposer, cc.proposer) {
      return false, CancelFailure(cc.proposalId, "proposer does not match");
    }
    proposal := proposal.(status := Completed);
    proposal := proposal.(outcome := Cancelled);
    proposal := proposal.(description := proposal.description + " - Canceled");
    if cc.reason != "" {
      proposal := proposal.(description := proposal.description + "for reason: " + cc.reason);
    }
    assert proposal == CancelledProposal(store.active[cc.proposalId], cc.reason);
    var written := store.SetFailed(proposal, setRefused);
    if !written {
      return false, CancelFailure(cc.proposalId, "failed to add proposal to FAILED store");
    }
    var deleted := store.DeleteActive(cc.proposalId, deleteFails);
    if !deleted {
      return false, CancelFailure(cc.proposalId, "failed to delete proposal from ACTIVE store");
    }
    ok, resp := true, EventResponse(CancelTags(cc), "cancel_proposal_success");
  }

  // ----- Withdraw -----

  /** `WithdrawProposal.Signers`: only the contributor signs. */
  function WithdrawSigners(wp: WithdrawProposal): (s: seq<Address>)
    ensures |s| == 1 && s[0] == wp.contributor
  {
    [wp.contributor]
  }

  /** `WithdrawProposal.ProcessFee`: the shared fee handling with multiplier 1. */
  function WithdrawProcessFee(): (f: FeeHandling)
    ensures f == BasicFeeHandling(1)
  {
    BasicFeeHandling(1)
  }

  /**
   * `WithdrawProposal.Tags`: type, proposal id, contributor, the amount's
   * JSON rendering `valueText` (`Amount.String`) and beneficiary, in that order.
   */
  function WithdrawTags(wp: WithdrawProposal, valueText: string): (tags: seq<KVPair>)
    ensures |tags| == 5
    ensures tags[0] == KVPair("tx.type", Text(TypeString(PROPOSAL_WITHDRAW)))
    ensures tags[1] == KVPair("tx.proposalID", Text(wp.proposalId))
    ensures tags[2] == KVPair("tx.contributor", Raw(Bytes(wp.contributor)))
    ensures tags[3] == KVPair("tx.withdrawValue", Text(valueText))
    ensures tags[4] == KVPair("tx.beneficiary", Raw(Bytes(wp.beneficiary)))
  {
    [ KVPair("tx.type", Text(TypeString(PROPOSAL_WITHDRAW))),
      KVPair("tx.proposalID", Text(wp.proposalId)),
      KVPair("tx.contributor", Raw(Bytes(wp.contributor))),
      KVPair("tx.withdrawValue", Text(valueText)),
      KVPair("tx.beneficiary", Raw(Bytes(wp.beneficiary))) ]
  }

  /**
   * `WithdrawProposal.Unmarshal` as written: it has a value receiver and
   * hands that value, not a pointer, to `json.Unmarshal`, which refuses a
   * non-pointer target; so it fails on every input.
   */
  function UnmarshalAsWritten(data: seq<byte>): (r: Option<WithdrawProposal>)
    ensures r.None?
  {
    None
  }

  /**
   * `WithdrawProposal.Unmarshal` as intended: decode into the receiver
   * through a pointer, so the result is whatever the JSON decoder `json`
   * makes of the bytes.
   */
  function Unmarshal(json: seq<byte> -> Option<WithdrawProposal>, data: seq<byte>): (r: Option<WithdrawProposal>)
    ensures r == json(data)
  {
    json(data)
  }

  /**
   * Marshal then unmarshal: with a decoder that inverts the encoder, the
   * intended `Unmarshal` gives the message back, while the one as written
   * loses it.
   */
  lemma UnmarshalRoundTrip(
    json: seq<byte> -> Option<WithdrawProposal>, marshal: WithdrawProposal -> seq<byte>, wp: WithdrawProposal)
    requires json(marshal(wp)) == Some(wp)
    ensures Unmarshal(json, marshal(wp)) == Some(wp)
    ensures UnmarshalAsWritten(marshal(wp)) != Some(wp)
  {
  }

  /**
   * `WithdrawProposal.Validate` on the decoded payload: the currency must be
   * the name of currency id 0 (whose absence is a panic), and contributor and
   * beneficiary must be valid addresses.
   */
  function ValidateWithdraw(
    payload: Option<WithdrawProposal>, signaturesOk: bool, feeOk: bool,
    currencies: CurrencyList, validAddress: Address -> bool): (r: Outcome<Error>)
    ensures payload.None? ==> r == Fail(WrongTxType)
    ensures payload.Some? && !signaturesOk ==> r == Fail(InvalidSignature)
    ensures payload.Some? && signaturesOk && !feeOk ==> r == Fail(InsufficientFee)
    ensures payload.Some? && signaturesOk && feeOk && 0 !in currencies.byId ==>
              r == Fail(Panic("no default currency available in the network"))
    ensures (payload.Some? && signaturesOk && feeOk && 0 in currencies.byId
             && currencies.byId[0].name != payload.value.withdrawValue.currency) ==> r == Fail(InvalidAmount)
    ensures (payload.Some? && signaturesOk && feeOk && 0 in currencies.byId
             && currencies.byId[0].name == payload.value.withdrawValue.currency
             && !validAddress(payload.value.contributor)) ==> r == Fail(InvalidAddress("invalid withdraw contributor address"))
    ensures (payload.Some? && signaturesOk && feeOk && 0 in currencies.byId
             && currencies.byId[0].name == payload.value.withdrawValue.currency
             && validAddress(payload.value.contributor) && !validAddress(payload.value.beneficiary)) ==>
              r == Fail(InvalidAddress("invalid withdraw beneficiary address"))
    ensures r.Pass? <==> payload.Some? && signaturesOk && feeOk && 0 in currencies.byId
                         && currencies.byId[0].name == payload.value.withdrawValue.currency
                         && validAddress(payload.value.contributor) && validAddress(payload.value.beneficiary)
  {
    if payload.None? then Fail(WrongTxType)
    else if !signaturesOk then Fail(InvalidSignature)
    else if !feeOk then Fail(InsufficientFee)
    else
      var wp := payload.value;
      match currencies.GetCurrencyById(0)
      case None => Fail(Panic("no default currency available in the network"))
      case Some(currency) =>
        if currency.name != wp.withdrawValue.currency then Fail(InvalidAmount)
        else if !validAddress(wp.contributor) then Fail(InvalidAddress("invalid withdraw contributor address"))
        else if !validAddress(wp.beneficiary) then Fail(InvalidAddress("invalid withdraw beneficiary address"))
        else Pass
  }

  /** As written, every withdraw transaction is rejected as being of the wrong type. */
  lemma AsWrittenValidateAlwaysRejects(
    data: seq<byte>, signaturesOk: bool, feeOk: bool, currencies: CurrencyList, validAddress: Address -> bool)
    ensures ValidateWithdraw(UnmarshalAsWritten(data), signaturesOk, feeOk, currencies, validAddress) == Fail(WrongTxType)
  {
  }

  /**
   * With the intended decoder, a withdraw that round-trips through JSON, is
   * signed, pays its fee, asks for the default currency and names valid
   * addresses is accepted; the same bytes are rejected as written.
   */
  lemma CorrectedValidateAccepts(
    json: seq<byte> -> Option<WithdrawProposal>, data: seq<byte>, wp: WithdrawProposal,
    currencies: CurrencyList, validAddress: Address -> bool)
    requires json(data) == Some(wp)
    requires 0 in currencies.byId && currencies.byId[0].name == wp.withdrawValue.currency
    requires validAddress(wp.contributor) && validAddress(wp.beneficiary)
    ensures ValidateWithdraw(Unmarshal(json, data), true, true, currencies, validAddress) == Pass
    ensures ValidateWithdraw(UnmarshalAsWritten(data), true, true, currencies, validAddress) == Fail(WrongTxType)
  {
  }

  /** A contribution to a proposal, keyed by proposal and contributor. */
  datatype FundKey = FundKey(proposal: ProposalID, contributor: Address)

  /** The proposal fund store (`ProposalMasterStore.ProposalFund`). */
  class FundStore {
    var funds: map<FundKey, int>

    constructor (initial: map<FundKey, int>)
      ensures funds == initial
    {
      funds := initial;
    }

    /** `DeductFunds`: lower the contributor's fund, unless the store fails. */
    method DeductFunds(key: FundKey, amount: int, fails: bool) returns (ok: bool)
      requires key in funds
      modifies this
      ensures ok == !fails
      ensures funds == if ok then old(funds)[key := old(funds)[key] - amount] else old(funds)
    {
      ok := !fails;
      if ok {
        funds := funds[key := funds[key] - amount];
      }
    }
  }

  /** The name of the single event of a withdraw response, "" when there is none. */
  function WithdrawEvent(resp: Response): string
  {
    if |resp.events| == 1 then resp.events[0].name else ""
  }

  /** The condition under which a contributor may withdraw: the goal was missed and the deadline has passed. */
  predicate WithdrawOpen(p: Proposal, currentFunds: int, height: int)
  {
    currentFunds < p.fundingGoal && height > p.fundingDeadline as int
  }

  /** Whether the contributor has a fund record for the proposal that covers the amount asked for. */
  predicate FundCovers(funds: map<FundKey, int>, p: Proposal, wp: WithdrawProposal)
  {
    var key := FundKey(p.proposalId, wp.contributor);
    key in funds && funds[key] >= wp.withdrawValue.value
  }

  /** The fund store after the contributor's fund for the proposal is lowered by the amount. */
  function Deducted(funds: map<FundKey, int>, p: Proposal, wp: WithdrawProposal): (r: map<FundKey, int>)
    requires FundCovers(funds, p, wp)
    ensures r.Keys == funds.Keys
    ensures r[FundKey(p.proposalId, wp.contributor)] == funds[FundKey(p.proposalId, wp.contributor)] - wp.withdrawValue.value
    ensures r[FundKey(p.proposalId, wp.contributor)] >= 0
    ensures forall k :: k in funds && k != FundKey(p.proposalId, wp.contributor) ==> r[k] == funds[k]
  {
    var key := FundKey(p.proposalId, wp.contributor);
    funds[key := funds[key] - wp.withdrawValue.value]
  }

  /** Status and outcome of the local proposal copy once the withdrawal went through. */
  function StatusAfterWithdraw(fundsBefore: int): (so: (ProposalStatus, ProposalOutcome))
    ensures fundsBefore == 0 ==> so == (WithdrawCompleted, Cancelled)
    ensures fundsBefore != 0 ==> so == (Withdrawing, InsufficientFunds)
  {
    if fundsBefore == 0 then (WithdrawCompleted, Cancelled) else (Withdrawing, InsufficientFunds)
  }

  /**
   * `runWithdraw` on the decoded payload. `found` is `QueryAllStores`'
   * answer and `currentFunds` that of `GetCurrentFunds` (both helpers of the
   * governance data package). On success the contributor's fund drops by the
   * amount and the beneficiary is credited the coin. The status and outcome
   * are set on a local copy of the proposal that is never written back; the
   * ghost `local` is that copy.
   */
  method RunWithdraw(
    funds: FundStore, ledger: BalanceLedger, currencies: CurrencyList,
    payload: Option<WithdrawProposal>, found: Option<Proposal>, currentFunds: int, height: int,
    valueText: string, deductFails: bool, creditRefused: bool)
    returns (ok: bool, resp: Response, ghost local: Option<Proposal>)
    modifies funds, ledger
    // Nothing decoded: an empty response.
    ensures payload.None? ==>
              !ok && resp == EmptyResponse && funds.funds == old(funds.funds) && ledger.holdings == old(ledger.holdings)
    // Every decoded withdraw answers with one event carrying its tags.
    ensures payload.Some? ==> resp == EventResponse(WithdrawTags(payload.value, valueText), WithdrawEvent(resp))
    ensures payload.Some? && found.None? ==>
              !ok && WithdrawEvent(resp) == "withdraw_proposal_does_not_exist"
              && funds.funds == old(funds.funds) && ledger.holdings == old(ledger.holdings)
    ensures payload.Some? && found.Some? && !WithdrawOpen(found.value, currentFunds, height) ==>
              !ok && WithdrawEvent(resp) == "withdraw_proposal_does_not_meet_withdraw_requirement"
              && funds.funds == old(funds.funds) && ledger.holdings == old(ledger.holdings)
    ensures (payload.Some? && found.Some? && WithdrawOpen(found.value, currentFunds, height)
             && !FundCovers(old(funds.funds), found.value, payload.value)) ==>
              !ok && WithdrawEvent(resp) == "no_available__fund_to_withdraw_for_this_contributor"
              && funds.funds == old(funds.funds) && ledger.holdings == old(ledger.holdings)
    ensures (payload.Some? && found.Some? && WithdrawOpen(found.value, currentFunds, height)
             && FundCovers(old(funds.funds), found.value, payload.value) && deductFails) ==>
              !ok && WithdrawEvent(resp) == "withdraw_proposal_DeductFund_failed"
              && funds.funds == old(funds.funds) && ledger.holdings == old(ledger.holdings)
    // A refused credit does not undo the deduction already made.
    ensures (payload.Some? && found.Some? && WithdrawOpen(found.value, currentFunds, height)
             && FundCovers(old(funds.funds), found.value, payload.value) && !deductFails && creditRefused) ==>
              !ok && WithdrawEvent(resp) == "withdraw_proposal_addition_failed"
              && funds.funds == Deducted(old(funds.funds), found.value, payload.value)
              && ledger.holdings == old(ledger.holdings)
    ensures ok <==> payload.Some? && found.Some? && WithdrawOpen(found.value, currentFunds, height)
                    && FundCovers(old(funds.funds), found.value, payload.value)
                    && !deductFails && !creditRefused
    ensures ok ==> var wp := payload.value;
                   WithdrawEvent(resp) == "withdraw_proposal_success"
                   && funds.funds == Deducted(old(funds.funds), found.value, wp)
                   && ledger.holdings == Credit(old(ledger.holdings), wp.beneficiary, ToCoin(wp.withdrawValue, currencies))
                   && local.Some? && local.value.proposalId == found.value.proposalId
                   && (local.value.status, local.value.outcome) == StatusAfterWithdraw(currentFunds)
  {
    local := None;
    if payload.None? {
      return false, EmptyResponse, local;
    }
    var wp := payload.value;
    var tags := WithdrawTags(wp, valueText);
    if found.None? {
      return false, EventResponse(tags, "withdraw_proposal_does_not_exist"), local;
    }
    var proposal := found.value;
    if currentFunds >= proposal.fundingGoal || height <= proposal.fundingDeadline as int {
      return false, EventResponse(tags, "withdraw_proposal_does_not_meet_withdraw_requirement"), local;
    }
    proposal := proposal.(status := Withdrawing, outcome := InsufficientFunds);
    local := Some(proposal);

    var key := FundKey(proposal.proposalId, wp.contributor);
    if key !in funds.funds {
      return false, EventResponse(tags, "no_available__fund_to_withdraw_for_this_contributor"), local;
    }
    var proposalFund := funds.funds[key];
    var withdrawAmount := wp.withdrawValue.value;
    if proposalFund < withdrawAmount {
      return false, EventResponse(tags, "no_available__fund_to_withdraw_for_this_contributor"), local;
    }
    var deducted := funds.DeductFunds(key, withdrawAmount, deductFails);
    if !deducted {
      return false, EventResponse(tags, "withdraw_proposal_DeductFund_failed"), local;
    }
    var coin := ToCoin(wp.withdrawValue, currencies);
    var credited := ledger.AddToAddress(wp.beneficiary, coin, creditRefused);
    if !credited {
      return false, EventResponse(tags, "withdraw_proposal_addition_failed"), local;
    }
    resp := EventResponse(tags, "withdraw_proposal_success");
    if currentFunds == 0 {
      proposal := proposal.(status := WithdrawCompleted, outcome := Cancelled);
      local := Some(proposal);
    }
    ok := true;
  }

  /**
   * As written, `runWithdraw` decodes with `UnmarshalAsWritten` and so never
   * gets past decoding: it fails and changes no fund and no balance.
   */
  method RunWithdrawAsWritten(
    funds: FundStore, ledger: BalanceLedger, currencies: CurrencyList, data: seq<byte>,
    found: Option<Proposal>, currentFunds: int, height: int, deductFails: bool, creditRefused: bool)
    returns (ok: bool, resp: Response)
    modifies funds, ledger
    ensures !ok && resp == EmptyResponse
    ensures funds.funds == old(funds.funds) && ledger.holdings == old(ledger.holdings)
  {
    ghost var local;
    ok, resp, local := RunWithdraw(funds, ledger, currencies, UnmarshalAsWritten(data), found, currentFunds, height, "", deductFails, creditRefused);
  }
}

=== FILE: jobs.dfy ===
/**
 * The job bookkeeping shared by the broadcast jobs (`data/jobs`). That
 * package is not part of this model: its status values appear here as far as
 * the jobs use them, and its retry bound is left uninterpreted.
 */
module Jobs {
  /** `jobs.Status`, the values the broadcast jobs read or assign. */
  datatype Status = New | InProgress | Completed | Failed

  /** `jobs.Max_Retry_Count`, whose value is fixed outside this model. */
  const MaxRetryCount: int
}

=== FILE: keys.dfy ===
/**
 * Addresses of the ledger (data/keys/address.go): an address is a byte
 * string; it renders as "0x" followed by its upper-case base16 digits
 * (section 8 of RFC 4648) and compares byte by byte.
 */
module Keys {

  newtype byte = x: int | 0 <= x < 256

  type Address = seq<byte>

  /** The base16 alphabet of section 8 of RFC 4648; `upper` selects its upper-case form. */
  function HexDigit(d: int, upper: bool): char
    requires 0 <= d < 16
  {
    if d < 10 then '0' + d as char
    else if upper then 'A' + (d - 10) as char
    else 'a' + (d - 10) as char
  }

  /** Base16 encoding of a byte string, two digits per byte, high nibble first. */
  function Hex(bs: seq<byte>, upper: bool): (s: string)
    ensures |s| == 2 * |bs|
  {
    if bs == [] then []
    else [HexDigit(bs[0] as int / 16, upper), HexDigit(bs[0] as int % 16, upper)] + Hex(bs[1..], upper)
  }

  lemma HexDigitInjective(d: int, e: int, upper: bool)
    requires 0 <= d < 16 && 0 <= e < 16
    requires HexDigit(d, upper) == HexDigit(e, upper)
    ensures d == e
  {
  }

  /** Distinct byte strings have distinct base16 encodings. */
  lemma {:induction false} HexInjective(a: seq<byte>, b: seq<byte>, upper: bool)
    requires Hex(a, upper) == Hex(b, upper)
    ensures a == b
  {
    if a != [] {
      var ha, hb := Hex(a, upper), Hex(b, upper);
      assert |b| == |a|;
      assert ha[0] == hb[0] && ha[1] == hb[1];
      HexDigitInjective(a[0] as int / 16, b[0] as int / 16, upper);
      HexDigitInjective(a[0] as int % 16, b[0] as int % 16, upper);
      assert a[0] == b[0];
      assert ha[2..] == Hex(a[1..], upper);
      assert hb[2..] == Hex(b[1..], upper);
      HexInjective(a[1..], b[1..], upper);
      assert a == [a[0]] + a[1..];
      assert b == [b[0]] + b[1..];
    }
  }

  /** `Address.String`: "0x" and the upper-case base16 digits of the address. */
  function String(a: Address): (s: string)
    ensures |s| == 2 + 2 * |a|
    ensures s[..2] == "0x" && s[2..] == Hex(a, true)
  {
    "0x" + Hex(a, true)
  }

  /** Distinct addresses render as distinct strings. */
  lemma StringInjective(a: Address, b: Address)
    requires String(a) == String(b)
    ensures a == b
  {
    assert String(a)[2..] == String(b)[2..];
    HexInjective(a, b, true);
  }

  /** Every character after the "0x" prefix is a digit or an upper-case letter A-F. */
  lemma {:induction false} StringAlphabet(a: Address, i: int)
    requires 2 <= i < |String(a)|
    ensures String(a)[i] in "0123456789ABCDEF"
  {
    HexAlphabet(a, i - 2);
  }

  lemma {:induction false} HexAlphabet(bs: seq<byte>, i: int)
    requires 0 <= i < 2 * |bs|
    ensures Hex(bs, true)[i] in "0123456789ABCDEF"
  {
    if i >= 2 {
      HexAlphabet(bs[1..], i - 2);
    }
  }

  /** `Address.Bytes`: the address's own bytes. */
  function Bytes(a: Address): (bs: seq<byte>)
    ensures |bs| == |a| && forall i :: 0 <= i < |a| ==> bs[i] == a[i]
  {
    a
  }

  /**
   * `Address.Equal`: `bytes.Equal`, same length and the same byte at every
   * position; that is exactly equality of the two byte sequences.
   */
  function Equal(a: Address, b: Address): (r: bool)
    ensures r <==> a == b
  {
    |a| == |b| && forall i :: 0 <= i < |a| ==> a[i] == b[i]
  }

  /** `Equal` is reflexive and symmetric. */
  lemma EqualReflexiveSymmetric(a: Address, b: Address)
    ensures Equal(a, a)
    ensures Equal(a, b) == Equal(b, a)
  {
  }
}

=== FILE: serialize_adapter.dfy ===
/**
 * The example serialisation adapter (`node/serialize/example_adapter.go`):
 * a record `TestStuffAd` and its flat data form `TestStuffAdData`, with the
 * conversions the serializer uses in both directions.
 */
module SerializeAdapter {
  import opened Wrappers
  import opened Keys
  import opened Action

  /** A Go `float64`, only ever copied: its IEEE-754 bit pattern, with no arithmetic. */
  datatype Float64 = Float64(bits: bv64)

  /** `testStuffAdData`: the data form. */
  datatype TestStuffAdData = TestStuffAdData(x: string, y: int64, z: int64, j: seq<byte>, k: Float64)

  /** The value `SetData` receives: a `*testStuffAdData` (possibly nil) or a value of any other type. */
  datatype AnyData = StuffData(ptr: Option<TestStuffAdData>) | OtherData

  /** What `SetData` does: succeed, return the "Wrong data" error, or panic on a nil pointer. */
  datatype SetDataResult = Done | WrongData(msg: string) | NilDereference

  /** `testStuffAd`: the record whose fields `SetData` overwrites. */
  class TestStuffAd {
    var f: string
    var a: int64
    var b: int64
    var c: seq<byte>
    var h: Float64

    constructor (f: string, a: int64, b: int64, c: seq<byte>, h: Float64)
      ensures this.f == f && this.a == a && this.b == b && this.c == c && this.h == h
    {
      this.f, this.a, this.b, this.c, this.h := f, a, b, c, h;
    }

    /** `Data`: the record's fields, in order, as data. */
    function Data(): (d: TestStuffAdData)
      reads this
      ensures d.x == f && d.y == a && d.z == b && d.j == c && d.k == h
    {
      TestStuffAdData(f, a, b, c, h)
    }

    /** `NewDataInstance`: zero-valued data, whatever the record holds. */
    function NewDataInstance(): (d: TestStuffAdData)
      ensures d.x == [] && d.y == 0 && d.z == 0 && d.j == [] && d.k == Float64(0)
    {
      TestStuffAdData("", 0, 0, [], Float64(0))
    }

    /**
     * `SetData`: with a `*testStuffAdData` copy its five fields into the
     * record; with anything else return "Wrong data" and change nothing. A
     * nil pointer passes the type assertion and panics on the first field read.
     */
    method SetData(arg: AnyData) returns (r: SetDataResult)
      modifies this
      ensures arg.OtherData? ==> r == WrongData("Wrong data") && Data() == old(Data())
      ensures arg == StuffData(None) ==> r == NilDereference && Data() == old(Data())
      ensures arg.StuffData? && arg.ptr.Some? ==> r == Done && Data() == arg.ptr.value
    {
      if arg.OtherData? {
        return WrongData("Wrong data");
      }
      if arg.ptr.None? {
        return NilDereference;
      }
      var ad := arg.ptr.value;
      f := ad.x;
      a := ad.y;
      b := ad.z;
      c := ad.j;
      h := ad.k;
      r := Done;
    }
  }

  /** `SerialTag`: the empty tag. */
  function SerialTag(ad: TestStuffAdData): (tag: string)
    ensures tag == []
  {
    ""
  }

  /** `Primitive`: a new record holding the data's five fields. */
  method Primitive(ad: TestStuffAdData) returns (t: TestStuffAd)
    ensures fresh(t)
    ensures t.f == ad.x && t.a == ad.y && t.b == ad.z && t.c == ad.j && t.h == ad.k
  {
    t := new TestStuffAd("", 0, 0, [], Float64(0));
    t.f := ad.x;
    t.a := ad.y;
    t.b := ad.z;
    t.c := ad.j;
    t.h := ad.k;
  }

  /** Round trip: `Primitive(Data(t))` is a new record, field by field equal to `t`. */
  method RoundTrip(t: TestStuffAd) returns (u: TestStuffAd)
    ensures fresh(u) && u != t
    ensures u.f == t.f && u.a == t.a && u.b == t.b && u.c == t.c && u.h == t.h
  {
    u := Primitive(t.Data());
  }

  /** Round trip the other way: data turned into a record and back is unchanged. */
  method DataRoundTrip(ad: TestStuffAdData) returns (back: TestStuffAdData)
    ensures back == ad
  {
    var t := Primitive(ad);
    back := t.Data();
  }
}

=== FILE: wrappers.dfy ===
/** Failure-carrying values used by every handler of the model. */
module Wrappers {

  datatype Option<+T> = None | Some(value: T)

  datatype Result<+R, +E> = Success(value: R) | Failure(error: E)

  /** A check that either passes or fails with an error, like Go's `(bool, error)` pair. */
  datatype Outcome<+E> = Pass | Fail(error: E)
}
